=== FILE: README.md ===
# Platformer movement core in Dafny

A model of the per-frame state machines of a Unity 2D platformer:

- **PlatformMove** (`platforms.dfy`, `segments.dfy`): path playback over
  authored `PlatformPathingSegment`s. The state is a segment cursor
  (`segmentIndex`), a direction (`velocity`, +1 or -1) and a loop policy
  (`repeat`: 1 loop, -1 ping-pong, anything else stop or destroy). It plays a
  running copy of the current segment. Linear, circular and sequenced
  segments each have their own waits, motion and completion rule.
- **PlayerController** (`player.dfy`): ground and wall classification from
  probe hits, the jump and dash budgets, the cooldown that gates refills,
  the wall-cling timer, wall jumps versus ground jumps, bullet dashes, the
  fall-through triggers and reparenting onto moving platforms.
- **WeaponController** (`weapon.dfy`): the charge, hold-time and fire-rate
  timers and the decision to fire, in the Semi, Auto and Burst modes.

Each Unity callback becomes a pure step function over immutable records.
Floats are exact `real`s, with the same `Mathf.Max`/`Mathf.Clamp` floors.
Unity's `Vector2 ==` is modelled as it behaves: squared distance below
`kEpsilon²` (`Engine.Same`).

Some inputs come from Unity rather than from this code:
- probe results (BoxCast and BoxCastAll hits), input axes, button edges,
  the aim vector and `Time.deltaTime` are fields of the step inputs;
- trigonometry and square roots are functions of a `Kinematics` value
  passed in: the circular pivot's Cos/Sin, `Transform.RotateAround`, the
  not-yet-arrived branch of `Vector2.MoveTowards`, and `Normalize`.
  `Engine.Sound` states the metric facts Unity guarantees for them without
  square roots. Each contract that depends on geometry is stated for any
  `Kinematics` satisfying it;
- `IgnoreCollision`, the `ResetCollision` coroutine and the `Invoke` of
  `ResumeControls` are returned as `Effect` values for the engine to run.

Behaviours of the code that the model keeps as written:
- A wall jump sets the velocity and the cling lock and leaves `jumps` as
  it was (PlayerController.cs:189-193).
- Clinging sets the vertical velocity directly: 1 while the timer is
  non-negative, `gravity.y * -clingTime` after (PlayerController.cs:146-147).
- Crouching halves the horizontal target speed at full crouch
  (PlayerController.cs:103).
- Pushing up while standing on a Half platform schedules collision to be
  re-enabled after no delay (PlayerController.cs:122).
- Jumps and dashes are restored by the grounded refill once the cooldown
  is 0, and dashes also by clinging (PlayerController.cs:105-111, 145).
- An empty path is an error the model returns: `Platforms.Awake` gives
  `None` where `path[0]` would throw (PlatformMove.cs:24).

## Model

| member | source | states |
|---|---|---|
| `Engine.MoveTowards` | Assets/Scripts/PlayerController.cs:103 | Mathf.MoveTowards moves by at most maxDelta. It never passes the target, and it lands exactly on the target iff the target is within maxDelta. |
| `Engine.Abs` | Assets/Scripts/PlayerController.cs:177 | Mathf.Abs: non-negative, and either the value or its negation. |
| `Engine.Max` | Assets/Scripts/PlayerController.cs:79 | Mathf.Max: at least both arguments, and equal to one of them. |
| `Engine.Sign` | Assets/Scripts/PlayerController.cs:103 | Mathf.Sign, used by Mathf.MoveTowards: 1 for zero and positive values, -1 for negative ones. |
| `Engine.Clamp` | Assets/Scripts/PlatformMove.cs:122-123 | Mathf.Clamp stays within [lo, hi] when lo <= hi, and leaves an in-range value alone. |
| `Engine.MoveTowardsVec` | Assets/Scripts/PlatformMove.cs:110 | Vector2.MoveTowards returns exactly the target when it is within reach. With sound geometry and a non-negative step, the result is at most maxDelta from the start. With a positive step it is the target or strictly closer to it. |
| `Engine.Reversed` | Assets/Scripts/PlatformMove.cs:218 | List.Reverse: same length, and element i is the original's element n-1-i. |
| `Engine.ReversedTwice` | Assets/Scripts/PlatformMove.cs:218 | Reversing a waypoint list twice gives back the list. |
| `Segments.Copy` | Assets/Scripts/PlatformMove.cs:181-201 | The copy equals the template in every field, including its own waypoint list. |
| `Segments.Reverse` | Assets/Scripts/PlatformMove.cs:203-221 | Only the subtype's geometry changes. A linear offset becomes its opposite (the two sum to zero). A circular sweep is negated and its centre angle becomes the forward arc's end angle. Waypoints come in reverse order. |
| `Segments.ReverseInvolution` | Assets/Scripts/PlatformMove.cs:203-221 | Reverse applied twice restores the segment, for every subtype. |
| `Segments.Oriented` | Assets/Scripts/PlatformMove.cs:96-97 | Played backward, reversing the running copy gives the template back. Played forward, it is the template. In both directions the subtype, speed, waits and progress fields are the template's, so the copy is unplayed iff the template is. |
| `Platforms.Awake` | Assets/Scripts/PlatformMove.cs:22-28 | Takes the authored segments as unplayed, since moveTo, rotateAround and movingTo are not serialized (lines 169, 175, 179). Fails iff the path is empty. Otherwise: index 0, forward, a copy of path[0], the invariant, the given pose stored as the initial pose (position, scale and rotation), and the path, loop policy, destroy flag, moving flag and children kept. |
| `Platforms.Update` | Assets/Scripts/PlatformMove.cs:30-33 | A platform that is not moving (or is destroyed) is left exactly as it is, and an active one plays Move. Every tick keeps the invariant: direction is ±1, only ping-pong reverses it, the authored segments stay unplayed, scale and rotation stay at their initial values, and while active the index is in range and the running segment is a progressed copy of the oriented template. |
| `Platforms.Move` | Assets/Scripts/PlatformMove.cs:35-60 | While the entry wait is pending nothing but the running segment's wait changes. Going forward only waitStart drains, going backward only waitEnd drains, each by dt floored at 0. With no entry wait pending, the tick is MoveLinear, MoveCircular or MoveSequenced according to the segment's subtype. |
| `Platforms.NextSegment` | Assets/Scripts/PlatformMove.cs:62-100 | The exit wait drains first (the opposite one for each direction). Then: an in-range advance moves the index by exactly velocity onto the unplayed, oriented copy of the new template, and changes nothing else. Loop overflow restarts at a fresh path[0], at the initial pose, with no Player children and direction still +1, and changes nothing else. Ping-pong keeps the index, flips the direction and replays that segment reversed iff the new direction is -1, changing nothing else. Stop freezes or destroys, changing only the index and those flags. |
| `Platforms.Reset` | Assets/Scripts/PlatformMove.cs:144-152 | Index 0 and a fresh copy of path[0]. Position, scale and rotation return to their initial values. Exactly the non-"Player" children remain. Nothing else changes. |
| `Platforms.DetachPlayers` | Assets/Scripts/PlatformMove.cs:148 | No "Player" child remains, and every other child is kept. |
| `Platforms.LinearGoal` | Assets/Scripts/PlatformMove.cs:104 | A resolved goal is returned whatever the position. An unresolved goal lies exactly moveBy from the start position, so its squared distance is that of moveBy. Persistence over ticks is `Platforms.LinearGoalPersists`. |
| `Platforms.MoveLinear` | Assets/Scripts/PlatformMove.cs:102-111 | On arrival at the goal the tick is NextSegment of the platform with the goal recorded. Otherwise the goal is recorded, only position and the running segment change, and (with sound geometry) the platform moves at most speed·dt and lands on the goal or ends strictly closer. |
| `Platforms.SweepStep` | Assets/Scripts/PlatformMove.cs:121-123 | The remaining sweep moves toward 0 by at most speed·dt and never changes sign or grows. It reaches 0 iff the step covers it, and otherwise shrinks by exactly the step. |
| `Platforms.Pivot` | Assets/Scripts/PlatformMove.cs:115 | A resolved pivot is returned whatever the position. With sound geometry an unresolved pivot lies exactly radius from the start position. Persistence over ticks is `Platforms.PivotPersists`. |
| `Platforms.MoveCircular` | Assets/Scripts/PlatformMove.cs:113-128 | The segment completes exactly when the sweep is 0. Otherwise it stores the pivot, the new sweep is SweepStep of the old one by speed·dt, it orbits the pivot by old sweep minus new sweep, and only position and the running segment change. With sound geometry it stays at the same distance from the pivot. |
| `Platforms.MoveSequenced` | Assets/Scripts/PlatformMove.cs:130-142 | Completes iff the list is empty or the cursor is past the end. Otherwise only position and the cursor change, and, with sound geometry, it moves at most speed·dt and lands on the current waypoint or ends strictly closer. The cursor advances by one iff the new position compares equal to the waypoint. |
| `Platforms.Run` | Assets/Scripts/PlatformMove.cs:30-33 | The invariant holds after any number of ticks. |
| `Platforms.StoppedStaysPut` | Assets/Scripts/PlatformMove.cs:88-92 | After a stop (or destroy), no sequence of ticks changes the platform. |
| `Platforms.ForwardUnlessPingPong` | Assets/Scripts/PlatformMove.cs:84 | Unless the policy is ping-pong, the direction is +1 after any sequence of ticks. |
| `Platforms.LinearGoalPersists` | Assets/Scripts/PlatformMove.cs:104 | A resolved linear goal and the segment index stay fixed until the platform reaches the goal. |
| `Platforms.LinearGoalResolvedOnEntry` | Assets/Scripts/PlatformMove.cs:104 | The first moving tick of a linear segment fixes its goal at the start position plus moveBy. |
| `Platforms.PivotPersists` | Assets/Scripts/PlatformMove.cs:115 | A resolved pivot and the segment index stay fixed while sweep remains. |
| `PlatformFindings.LinearGoalAsWritten` | Assets/Scripts/PlatformMove.cs:104 | Source behaviour: a stored goal away from the origin gives the corrected goal. A stored goal at the origin gives the goal for "unresolved", so it survives only if the platform sits exactly moveBy before it. |
| `PlatformFindings.LinearTickAsWritten` | Assets/Scripts/PlatformMove.cs:102-111 | Source behaviour: the stored goal is the as-written goal, and the tick arrives iff the position compares equal to it. With sound geometry the platform moves at most maxDelta and, when not arrived, lands on the goal or ends strictly closer. |
| `PlatformFindings.LinearGoalDriftsAsWritten` | Assets/Scripts/PlatformMove.cs:104 | A goal at the world origin is recomputed on the second tick, to (-0.5, 0). The corrected goal stays at the origin. |
| `PlatformFindings.LinearFirstTick` | Assets/Scripts/PlatformMove.cs:102-111 | In that run the first tick resolves the goal to the origin and moves to (0.5, 0) without arriving. |
| `PlatformFindings.LinearSecondTick` | Assets/Scripts/PlatformMove.cs:104 | In that run the second tick reads the origin goal as unresolved and moves it to (-0.5, 0). |
| `PlatformFindings.PivotAsWritten` | Assets/Scripts/PlatformMove.cs:115 | Source behaviour: a stored pivot away from the origin gives the corrected pivot. A stored pivot at the origin gives the pivot for "unresolved", and with sound geometry lies radius from the current position. |
| `PlatformFindings.CircularTickAsWritten` | Assets/Scripts/PlatformMove.cs:113-128 | Source behaviour: one circular tick around the as-written pivot, orbiting by the sweep consumed. The new sweep is SweepStep of the old one by the tick's delta and stays on its side of 0, and with sound geometry the distance to the pivot is kept. |
| `PlatformFindings.PivotDriftsAsWritten` | Assets/Scripts/PlatformMove.cs:115 | A pivot at the world origin is replaced by (1, 1) after a quarter turn. The corrected pivot stays at the origin. |
| `PlatformFindings.DetachPlayersAsWritten` | Assets/Scripts/PlatformMove.cs:148 | Source behaviour: unparenting while walking the live child list by index. Non-player children are all kept. |
| `PlatformFindings.SecondRiderSkippedAsWritten` | Assets/Scripts/PlatformMove.cs:148 | With two adjacent Player children the loop leaves the second attached, where the filter leaves none. |
| `PlayerControl.Awake` | Assets/Scripts/PlayerController.cs:54-61 | Starts with airJumps + 1 jumps and bulletDashes dashes, inside the budget invariant. |
| `PlayerControl.Classify` | Assets/Scripts/PlayerController.cs:128 | Ground is Half iff the tag equals "Half" ignoring case, and Full iff it equals "Full" ignoring case. No hit, or any other tag, gives None. |
| `PlayerControl.LastWall` | Assets/Scripts/PlayerController.cs:136-139 | A side reports a wall iff some hit is tagged exactly "Full". The wall reported is the last such hit. |
| `PlayerControl.CheckGrounded` | Assets/Scripts/PlayerController.cs:125-130 | Records the standing collider and its ground type. The player's parent is the standing collider iff that collider carries a PlatformMove, and is nothing otherwise. |
| `PlayerControl.CheckWalls` | Assets/Scripts/PlayerController.cs:132-141 | Records both walls. Losing both resets the cling timer to wallClingSmearDelay, and otherwise the timer is kept. |
| `PlayerControl.WallSum` | Assets/Scripts/PlayerController.cs:178-180 | -1 iff only a left wall is found, +1 iff only a right wall is, and 0 iff both or neither are. |
| `PlayerControl.ClingDirection` | Assets/Scripts/PlayerController.cs:113-115 | The direction is -1 iff there is a left wall and the input points left, and +1 iff there is a right wall and the input points right. |
| `PlayerControl.ReachDirection` | Assets/Scripts/PlayerController.cs:176-181 | The direction is -1 iff the input exceeds 0.5 in magnitude with only a left wall, and +1 iff it does with only a right wall. It is 0 iff the input is at most 0.5 or the walls are both present or both absent, and it always lies in [-1, 1]. |
| `PlayerControl.DashWallDirection` | Assets/Scripts/PlayerController.cs:155-160 | As ReachDirection, but only while airborne: -1 iff airborne pushing past 0.5 with only a left wall, +1 iff the same with only a right wall. It is 0 iff the player stands on something, the input is at most 0.5, or the walls are both present or both absent, and it always lies in [-1, 1]. |
| `PlayerControl.Refill` | Assets/Scripts/PlayerController.cs:105-111 | Restores jumps to airJumps + 1, dashes to bulletDashes and clingTime to wallClingSmearDelay, and clears lastClingDir. Nothing else changes. |
| `PlayerControl.HorizontalTarget` | Assets/Scripts/PlayerController.cs:103 | The target speed is the input times moveSpeed when not crouching. For a crouch axis c ≤ 0 it is that speed times (1 + c/2), so half at full crouch. It is 0 without input. |
| `PlayerControl.WallCling` | Assets/Scripts/PlayerController.cs:143-151 | Refills dashes and sets vy to 1 while clingTime >= 0, else to gravity.y·(-clingTime). clingTime is decremented with floor -1 and never grows. lastClingDir takes the cling direction exactly when -1 is reached. |
| `PlayerControl.Jump` | Assets/Scripts/PlayerController.cs:174-196 | No wall and no jumps left: nothing changes. No wall: jumps - 1, vy = jumpForce, cooldown 0.1. A wall not locked out: velocity (-dir·wallJumpForce.x, wallJumpForce.y), lastClingDir = dir, jumps unchanged. A locked wall: only the cooldown is re-armed. |
| `PlayerControl.BulletDash` | Assets/Scripts/PlayerController.cs:153-172 | Always overwrites lastClingDir. With no dashes left nothing else changes. Otherwise it spends exactly one dash, sets cooldown 0.1, releases controls and schedules their resumption after 0.1. With sound geometry the launch speed is exactly the dash force, or 0 for an aim shorter than kEpsilon. |
| `PlayerControl.FallThrough` | Assets/Scripts/PlayerController.cs:198-202 | Switches collision with that collider off and schedules it back on after 0.2. |
| `PlayerControl.CrouchEffects` | Assets/Scripts/PlayerController.cs:121-122 | Collision is switched off iff the vertical input is negative on Half ground. Up on Half ground only schedules a restore. |
| `PlayerControl.Settle` | Assets/Scripts/PlayerController.cs:101-116 | vx moves toward the (crouch-scaled) target by at most acceleration. Refill happens iff grounded with cooldown 0, and jumps are untouched otherwise. Cling happens only when airborne pushing into an unlocked wall, and otherwise vy is unchanged. |
| `PlayerControl.Move` | Assets/Scripts/PlayerController.cs:101-123 | Without button presses the result is the settled state. A jump press alone gives Jump of the settled state. A dash press gives BulletDash of the jumped (or settled) state, with its control-release effect ahead of the crouch effects. Without a dash press the effects are only the crouch effects. Collision is switched off only for the standing collider, and only on Half ground with vertical < 0. |
| `PlayerControl.Probe` | Assets/Scripts/PlayerController.cs:79-82 | The cooldown decays by dt with floor 0, and the input is read. Ground, walls and parent are classified from the probe hits. The cling timer restarts at the smear delay iff both walls are gone, and is kept otherwise. Nothing else changes: budgets, velocity, the cling lock and the control flag survive the probe. |
| `PlayerControl.Presses` | Assets/Scripts/PlayerController.cs:118-119 | The jump and dash presses leave ground, ground type and parent alone. Without a jump press the jump budget is kept. The only effect they schedule is the end of a dash's control release. |
| `PlayerControl.Update` | Assets/Scripts/PlayerController.cs:71-86 | Move runs only while controls are enabled. Afterwards the cooldown is either re-armed at 0.1 or the decayed value, so it is never negative. |
| `PlayerControl.ResumeControls` | Assets/Scripts/PlayerController.cs:216-219 | Re-enables movement and changes nothing else. |
| `PlayerControl.UpdateKeepsBudget` | Assets/Scripts/PlayerController.cs:101-123 | Every frame keeps 0 <= dashes <= bulletDashes, 0 <= jumps <= airJumps + 1, clingTime in [-1, wallClingSmearDelay], cooldown in [0, 0.1] and lastClingDir in {-1, 0, 1}. |
| `PlayerControl.RunKeepsBudget` | Assets/Scripts/PlayerController.cs:71-86 | The budget invariant holds after any sequence of frames and control resumptions. |
| `PlayerControl.RefillGate` | Assets/Scripts/PlayerController.cs:105-111 | Over a frame with no jump or dash, the budgets refill iff controls are on, the player is grounded and the decayed cooldown is 0. Otherwise jumps stay as they were. |
| `PlayerControl.FallThroughGate` | Assets/Scripts/PlayerController.cs:121 | Over a frame, collision with c is switched off iff controls are on, c is the standing collider, c is Half, and the vertical input is negative. |
| `PlayerControl.TwoJumpsThenNothing` | Assets/Scripts/PlayerController.cs:183-187 | With one air jump: ground jump, then air jump, then a third press changes nothing. |
| `PlayerControl.TagCaseSplit` | Assets/Scripts/PlayerController.cs:128-139 | A tag "full" counts as Full ground but not as a wall. |
| `Weapons.Awake` | Assets/Scripts/WeaponController.cs:20-21 | Starts with the charge at chargeTime, the hold timer at holdTime and the fire-rate cooldown at 0, inside the timer invariant. |
| `Weapons.ShotCount` | Assets/Scripts/WeaponController.cs:33 | Burst mode asks for burstCount shots, the other modes for 1. |
| `Weapons.Fire` | Assets/Scripts/WeaponController.cs:46-63 | Sets fireRate to the weapon's fire rate and resets charge to chargeTime iff chargePerShot. It schedules a follow-up iff more than one shot was asked for. |
| `Weapons.HoldPhase` | Assets/Scripts/WeaponController.cs:32-38 | While held, it fires iff (Auto or press frame) and fireRate == 0 and charge == 0. The shot has the mode's shot count and a follow-up iff that count exceeds 1. Then charge drains with floor 0, and holdTime drains only once charge is 0. When not held, charge resets to chargeTime and nothing else changes. |
| `Weapons.ReleasePhase` | Assets/Scripts/WeaponController.cs:39-42 | Fires iff released below full hold time, or expiring at hold time 0. A shot has the mode's count and a follow-up iff that count exceeds 1. It re-arms the cooldown, resets holdTime to the weapon's holdTime, and restarts the charge iff chargePerShot. Without a shot nothing changes. |
| `Weapons.Cooldown` | Assets/Scripts/WeaponController.cs:43 | The cooldown drops by fireRate·60·dt with floor 0, is never negative and never grows. |
| `Weapons.Update` | Assets/Scripts/WeaponController.cs:24-44 | The held shot fires iff the held-fire condition holds. The release shot fires iff the release condition holds on the timers the held phase left. Both shots carry the mode's count and follow-up. A release shot restores the hold time. Without one, charge and hold time are the held phase's. An unheld trigger leaves charge at chargeTime. The cooldown drains from the fire rate after any shot and from its old value otherwise, never below 0. |
| `Weapons.UpdateKeepsTimers` | Assets/Scripts/WeaponController.cs:24-44 | Every frame keeps charge in [0, chargeTime], the cooldown in [0, fireRate] and holdTime in [0, holdTime]. |
| `Weapons.CooldownNonIncreasing` | Assets/Scripts/WeaponController.cs:43 | In a frame without a shot the fire-rate cooldown does not increase. |
| `Weapons.RunKeepsTimers` | Assets/Scripts/WeaponController.cs:24-44 | The timer invariant holds after any sequence of frames. |

## Findings

| source | as written | input that shows it | evidently intended | confidence | as-written member | corrected member |
|---|---|---|---|---|---|---|
| Assets/Scripts/PlatformMove.cs:104 | `moveTo == Vector2.zero` stands for "goal not resolved", so a goal at the world origin is resolved again on the next tick from the moved position. | Platform at (1, 0), moveBy (-1, 0), speed·dt 0.5: the goal becomes (0, 0), then (-0.5, 0). | The goal is fixed once, at the start position plus moveBy. | high; not executed | `PlatformFindings.LinearTickAsWritten`, `PlatformFindings.LinearGoalDriftsAsWritten` | `Platforms.MoveLinear`, `Platforms.LinearGoalPersists` |
| Assets/Scripts/PlatformMove.cs:115 | `rotateAround == Vector2.zero` stands for "pivot not resolved", so a pivot at the world origin is recomputed from the moved position. | Platform at (-1, 0), radius 1, centerAngle 0, sweep 180, 90 degrees per tick: the pivot is (0, 0), then (1, 1). | The pivot is fixed once for the segment. | high; not executed | `PlatformFindings.CircularTickAsWritten`, `PlatformFindings.PivotDriftsAsWritten` | `Platforms.MoveCircular`, `Platforms.PivotPersists` |
| Assets/Scripts/PlatformMove.cs:148 | Unparents children while enumerating `transform`. Unity's Transform enumerator walks indices of the live list, so the child after a removed one is skipped. | Two adjacent "Player" children: the second stays attached. | Every "Player" child is detached. | medium (depends on Unity's enumerator); not executed | `PlatformFindings.DetachPlayersAsWritten`, `PlatformFindings.SecondRiderSkippedAsWritten` | `Platforms.DetachPlayers`, `Platforms.Reset` |

## Left out

- Unity physics: rigid-body integration between frames (gravity, collisions) is not modelled. The velocity field holds what the controller last wrote.
- Probes: `Physics2D.BoxCast`/`BoxCastAll` become input hits, already filtered to the Ground layer.
- Trigonometry, square roots and transforms are functions supplied by a `Kinematics` value, because they need Cos, Sin or sqrt: the circular pivot offset, `RotateAround`, the out-of-reach step of `Vector2.MoveTowards`, and `Normalize`.
- Platforms.MoveLinear, Platforms.MoveSequenced: "moves toward" is stated as "at most speed·dt, and on the goal or strictly closer" for geometry satisfying `Engine.Sound`. That the step runs along the straight line to the goal is not stated, because it needs square roots.
- Platforms.MoveCircular: orbiting is stated as "same distance to the pivot" for sound geometry. The angle actually turned is not stated, because it needs trigonometry.
- Multi-pass position properties need that geometry: ping-pong retracing back to the initial position, and the position after a full loop. Scale and rotation need none: `Platforms.Inv` keeps them at their initial values on every tick.
- Float rounding is not modelled; every float is an exact real. The circular `Reverse` round trip (`centerAngle - sweep + sweep`) is exact only in this model.
- The `.1f`, `.2f` and `.5f` constants are the exact reals 0.1, 0.2 and 0.5.
- Scheduled work is returned as `Effect`s and never executed here: the `ResetCollision` coroutine (PlayerController.cs:204-208) and the `Invoke` of `ResumeControls` (:210-219). When and how often the engine runs them is not modelled.
- Weapons.Fire: the burst follow-up `Invoke("Fire")` (WeaponController.cs:60-62) is recorded as `Shot.followUp` only. Whether Unity can invoke a method that takes a parameter is engine behaviour outside this model.
- Projectile spawning, random spread, `ProjectileController` and `ProjectileData` (WeaponController.cs:49-57, 66-78) are Unity object construction, so they are left out.
- Aiming: the reticle, cursor and `transform.right` (WeaponController.cs:15-19, 25-27) are presentation, so they are left out.
- Visual squish and crouch scaling, the lazily loaded original scale (PlayerController.cs:74-78, 87-98) and `OnDrawGizmos` are presentational float maths, so they are left out.
- `EnemyAI` and `CameraFollow` are force/damping and lerp smoothing with no discrete state, so they are left out.
- PlayerControl.Classify: `Enum.TryParse` also accepts numeric strings, surrounding whitespace and non-ASCII case folding. The model parses only the three names, ignoring ASCII case.
- PlayerControl.CheckGrounded: the "parent is the platform iff standing on it" property is stated only while the parent is nothing or a platform. A player authored under a non-platform parent keeps that parent while standing on it.
- `destroyOnFinish`: `Destroy(gameObject)` becomes a `destroyed` flag after which nothing runs. Unity's end-of-frame destruction is not modelled.
- A platform's Reset detaches riders from its own child list. The rider's own `parent` field in the player model is not linked to it, because the two objects are modelled separately.
- The segment fields `rotateBy`, `scaleBy` and `repeat` are copied but never read by the source. They are carried as data only.
- `Time.deltaTime >= 0` is assumed only by the invariant lemmas, as a property of the engine clock.

=== FILE: engine.dfy ===
/**
 * The engine-level vocabulary shared by the platform mover, the player
 * controller and the weapon: Unity's Vector2 and the Mathf helpers the
 * controllers call, with every float read as an exact real.
 *
 * Geometry that needs trigonometry or square roots (Cos/Sin, RotateAround,
 * the non-arriving branch of Vector2.MoveTowards, Normalize) is not computed
 * here: a `Kinematics` value supplies it, so every step function takes it as
 * an explicit input.
 */
module Engine {

  datatype Option<T> = None | Some(value: T)

  /** Unity's Vector2. */
  datatype Vec2 = Vec2(x: real, y: real)

  const Zero: Vec2 := Vec2(0.0, 0.0)

  function Add(a: Vec2, b: Vec2): Vec2 {
    Vec2(a.x + b.x, a.y + b.y)
  }

  /** `v *= -1` */
  function Neg(a: Vec2): Vec2 {
    Vec2(-a.x, -a.y)
  }

  function Scale(a: Vec2, k: real): Vec2 {
    Vec2(a.x * k, a.y * k)
  }

  function SqrDistance(a: Vec2, b: Vec2): real {
    (a.x - b.x) * (a.x - b.x) + (a.y - b.y) * (a.y - b.y)
  }

  /** Vector2.kEpsilon. */
  const Epsilon: real := 0.00001

  /**
   * Unity's `Vector2 ==`: two vectors compare equal when their squared
   * distance is below kEpsilon squared, so exact equality implies it.
   */
  predicate Same(a: Vec2, b: Vec2) {
    SqrDistance(a, b) < Epsilon * Epsilon
  }

  /** Mathf.Abs */
  function Abs(v: real): (r: real)
    ensures r >= 0.0
    ensures r == v || r == -v
  {
    if v < 0.0 then -v else v
  }

  /** Mathf.Max */
  function Max(a: real, b: real): (r: real)
    ensures r >= a && r >= b
    ensures r == a || r == b
  {
    if a >= b then a else b
  }

  /** Mathf.Clamp: the lower bound is tested first. */
  function Clamp(v: real, lo: real, hi: real): (r: real)
    ensures lo <= hi ==> lo <= r <= hi
    ensures lo <= v <= hi ==> r == v
    ensures r == v || r == lo || r == hi
  {
    if v < lo then lo else if v > hi then hi else v
  }

  /** Mathf.Sign: zero counts as positive. */
  function Sign(v: real): (r: real)
    ensures v >= 0.0 ==> r == 1.0
    ensures v < 0.0 ==> r == -1.0
  {
    if v >= 0.0 then 1.0 else -1.0
  }

  /**
   * Mathf.MoveTowards: step from `current` toward `target` by at most
   * `maxDelta`, landing exactly on the target when it is within reach.
   */
  function MoveTowards(current: real, target: real, maxDelta: real): (r: real)
    ensures maxDelta >= 0.0 ==> Abs(r - current) <= maxDelta
    ensures maxDelta >= 0.0 && current <= target ==> current <= r <= target
    ensures maxDelta >= 0.0 && target <= current ==> target <= r <= current
    ensures r == target <==> Abs(target - current) <= maxDelta
    ensures Abs(target - current) > maxDelta ==> Abs(r - current) == Abs(maxDelta)
  {
    if Abs(target - current) <= maxDelta then target
    else current + Sign(target - current) * maxDelta
  }

  /**
   * The geometry delegated to Unity:
   * - `polar(angleDegrees, radius)` is radius * (cos, sin) of the angle;
   * - `orbit(position, pivot, degrees)` is the position Transform.RotateAround
   *   leaves after turning `degrees` clockwise (about -z) around `pivot`;
   * - `glide(current, target, maxDelta)` is Vector2.MoveTowards's result
   *   when the target is out of reach;
   * - `normalize(v)` is Vector2.Normalize.
   */
  datatype Kinematics = Kinematics(
    polar: (real, real) -> Vec2,
    orbit: (Vec2, Vec2, real) -> Vec2,
    glide: (Vec2, Vec2, real) -> Vec2,
    normalize: Vec2 -> Vec2)

  /** Vector2.MoveTowards snaps to the target when it lies within `maxDelta`. */
  predicate WithinReach(current: Vec2, target: Vec2, maxDelta: real) {
    SqrDistance(current, target) == 0.0
    || (maxDelta >= 0.0 && SqrDistance(current, target) <= maxDelta * maxDelta)
  }

  /**
   * The metric facts Unity's geometry guarantees, stated without square
   * roots: `polar` yields a vector of length `radius`; `orbit` keeps the
   * distance to the pivot and is the identity for a zero turn; an
   * out-of-reach `glide` steps exactly `maxDelta` and ends strictly closer
   * to the target; `normalize` yields a unit vector, or zero for a vector
   * shorter than kEpsilon.
   */
  ghost predicate Sound(k: Kinematics) {
    && (forall angle, radius :: SqrDistance(k.polar(angle, radius), Zero) == radius * radius)
    && (forall v, c, degrees :: SqrDistance(k.orbit(v, c, degrees), c) == SqrDistance(v, c))
    && (forall v, c :: k.orbit(v, c, 0.0) == v)
    && (forall current, target, maxDelta ::
          !WithinReach(current, target, maxDelta) && maxDelta >= 0.0 ==>
            SqrDistance(current, k.glide(current, target, maxDelta)) == maxDelta * maxDelta)
    && (forall current, target, maxDelta ::
          !WithinReach(current, target, maxDelta) && maxDelta > 0.0 ==>
            SqrDistance(k.glide(current, target, maxDelta), target) < SqrDistance(current, target))
    && (forall v :: SqrDistance(v, Zero) > Epsilon * Epsilon ==> SqrDistance(k.normalize(v), Zero) == 1.0)
    && (forall v :: SqrDistance(v, Zero) <= Epsilon * Epsilon ==> k.normalize(v) == Zero)
  }

  /**
   * Vector2.MoveTowards: with sound geometry and a non-negative step, the
   * result is at most `maxDelta` from where it started, and it either lands
   * on the target or ends strictly closer to it.
   */
  function MoveTowardsVec(k: Kinematics, current: Vec2, target: Vec2, maxDelta: real): (r: Vec2)
    ensures WithinReach(current, target, maxDelta) ==> r == target
    ensures Sound(k) && maxDelta >= 0.0 ==> SqrDistance(current, r) <= maxDelta * maxDelta
    ensures Sound(k) && maxDelta > 0.0 ==> r == target || SqrDistance(r, target) < SqrDistance(current, target)
    ensures !WithinReach(current, target, maxDelta) ==> r == k.glide(current, target, maxDelta)
  {
    if WithinReach(current, target, maxDelta) then target
    else k.glide(current, target, maxDelta)
  }

  /** List<T>.Reverse on a value sequence. */
  function Reversed<T>(s: seq<T>): (r: seq<T>)
    ensures |r| == |s|
    ensures forall i :: 0 <= i < |s| ==> r[i] == s[|s| - 1 - i]
    decreases |s|
  {
    if |s| == 0 then [] else [s[|s| - 1]] + Reversed(s[..|s| - 1])
  }

  lemma ReversedTwice<T>(s: seq<T>)
    ensures Reversed(Reversed(s)) == s
  {
    var r := Reversed(Reversed(s));
    assert |r| == |s|;
    forall i | 0 <= i < |s|
      ensures r[i] == s[i]
    {
      assert r[i] == Reversed(s)[|s| - 1 - i];
    }
  }
}

=== FILE: platform_findings.dfy ===
/**
 * PlatformMove as written, where it departs from what it evidently means.
 *
 * 1. MoveLinear treats `moveTo == Vector2.zero` as "goal not resolved yet".
 *    A goal that really is the world origin is therefore resolved again on
 *    the next tick, from wherever the platform has got to.
 * 2. MoveCircular does the same with `rotateAround == Vector2.zero`, so a
 *    pivot at the world origin is recomputed from the moved position.
 * 3. Reset unparents "Player" children while enumerating the platform's own
 *    children. Unity's Transform enumerator walks child indices of the live
 *    list, so the child right after a removed one is never visited.
 *
 * The corrected behaviour is what Platforms models: optional goal and
 * pivot (Platforms.LinearGoalPersists, Platforms.PivotPersists) and a
 * filter over the children (Platforms.DetachPlayers).
 */
module PlatformFindings {
  import opened Engine
  import Platforms
  import Segments

  /**
   * The goal after MoveLinear's sentinel check, as written: `moveTo` is the
   * raw Vector2 field and `t` supplies `moveBy`. A stored goal away from the
   * origin is the corrected goal; a stored goal at the origin reads as
   * unresolved, so it survives only if the platform sits exactly `moveBy`
   * before it.
   */
  function LinearGoalAsWritten(t: Segments.Segment, moveTo: Vec2, position: Vec2): (g: Vec2)
    ensures !Same(moveTo, Zero) ==> g == Platforms.LinearGoal(t.(moveTo := Some(moveTo)), position)
    ensures Same(moveTo, Zero) ==> g == Platforms.LinearGoal(t.(moveTo := None), position)
    ensures Same(moveTo, Zero) && g == moveTo ==> Add(position, t.moveBy) == moveTo
  {
    if Same(moveTo, Zero) then Add(position, t.moveBy) else moveTo
  }

  /** One moving tick of a linear segment as written: the new position and stored goal. */
  datatype LinearTick = LinearTick(position: Vec2, moveTo: Vec2, arrived: bool)

  function LinearTickAsWritten(k: Kinematics, t: Segments.Segment, position: Vec2, moveTo: Vec2, maxDelta: real): (r: LinearTick)
    ensures r.moveTo == LinearGoalAsWritten(t, moveTo, position)
    ensures r.arrived <==> Same(position, r.moveTo)
    ensures r.arrived ==> r.position == position
    ensures !r.arrived ==> r.position == MoveTowardsVec(k, position, r.moveTo, maxDelta)
    ensures Sound(k) && maxDelta >= 0.0 ==> SqrDistance(position, r.position) <= maxDelta * maxDelta
    ensures Sound(k) && maxDelta > 0.0 && !r.arrived ==>
      r.position == r.moveTo || SqrDistance(r.position, r.moveTo) < SqrDistance(position, r.moveTo)
  {
    var goal := LinearGoalAsWritten(t, moveTo, position);
    if Same(position, goal) then LinearTick(position, goal, true)
    else LinearTick(MoveTowardsVec(k, position, goal, maxDelta), goal, false)
  }

  /**
   * A platform at (1, 0) told to move by (-1, 0) at half a unit per tick:
   * the goal is the origin, the first tick moves it to (0.5, 0) without
   * arriving, and the second tick re-resolves the goal to (-0.5, 0), where
   * the corrected goal would have stayed at the origin.
   */
  lemma LinearGoalDriftsAsWritten(k: Kinematics, t: Segments.Segment)
    requires t.moveBy == Vec2(-1.0, 0.0)
    requires k.glide(Vec2(1.0, 0.0), Zero, 0.5) == Vec2(0.5, 0.0)
    ensures LinearTickAsWritten(k, t, Vec2(1.0, 0.0), Zero, 0.5) == LinearTick(Vec2(0.5, 0.0), Zero, false)
    ensures LinearTickAsWritten(k, t, Vec2(0.5, 0.0), Zero, 0.5).moveTo == Vec2(-0.5, 0.0)
    ensures Platforms.LinearGoal(t.(moveTo := Some(Zero)), Vec2(0.5, 0.0)) == Zero
  {
    LinearFirstTick(k, t);
    LinearSecondTick(k, t);
  }

  /** The first tick of that run: the goal resolves to the origin and is not reached yet. */
  lemma LinearFirstTick(k: Kinematics, t: Segments.Segment)
    requires t.moveBy == Vec2(-1.0, 0.0)
    requires k.glide(Vec2(1.0, 0.0), Zero, 0.5) == Vec2(0.5, 0.0)
    ensures LinearTickAsWritten(k, t, Vec2(1.0, 0.0), Zero, 0.5) == LinearTick(Vec2(0.5, 0.0), Zero, false)
  {
    assert !Same(Vec2(1.0, 0.0), Zero);
    assert !WithinReach(Vec2(1.0, 0.0), Zero, 0.5);
  }

  /** The second tick of that run: the origin goal reads as unresolved and moves to (-0.5, 0). */
  lemma LinearSecondTick(k: Kinematics, t: Segments.Segment)
    requires t.moveBy == Vec2(-1.0, 0.0)
    ensures LinearTickAsWritten(k, t, Vec2(0.5, 0.0), Zero, 0.5).moveTo == Vec2(-0.5, 0.0)
  {
    assert LinearGoalAsWritten(t, Zero, Vec2(0.5, 0.0)) == Vec2(-0.5, 0.0);
  }

  /**
   * The pivot after MoveCircular's sentinel check, as written: a stored
   * pivot away from the origin is the corrected pivot; a stored pivot at
   * the origin reads as unresolved and is placed `radius` away again.
   */
  function PivotAsWritten(k: Kinematics, t: Segments.Segment, rotateAround: Vec2, position: Vec2): (c: Vec2)
    ensures !Same(rotateAround, Zero) ==> c == Platforms.Pivot(k, t.(rotateAround := Some(rotateAround)), position)
    ensures Same(rotateAround, Zero) ==> c == Platforms.Pivot(k, t.(rotateAround := None), position)
    ensures Sound(k) && Same(rotateAround, Zero) ==> SqrDistance(c, position) == t.radius * t.radius
  {
    if Same(rotateAround, Zero) then Add(position, k.polar(t.centerAngle, t.radius)) else rotateAround
  }

  /** One tick of a circular segment as written: new position, stored pivot, remaining sweep. */
  datatype CircularTick = CircularTick(position: Vec2, rotateAround: Vec2, rotateAroundBy: real)

  function CircularTickAsWritten(k: Kinematics, t: Segments.Segment, position: Vec2, rotateAround: Vec2,
                                 delta: real): (r: CircularTick)
    ensures r.rotateAround == PivotAsWritten(k, t, rotateAround, position)
    ensures r.rotateAroundBy == Platforms.SweepStep(t.rotateAroundBy, delta)
    ensures Segments.Within(r.rotateAroundBy, t.rotateAroundBy)
    ensures t.rotateAroundBy == 0.0 ==> r.position == position
    ensures t.rotateAroundBy != 0.0 ==>
      r.position == k.orbit(position, r.rotateAround, t.rotateAroundBy - r.rotateAroundBy)
    ensures Sound(k) ==> SqrDistance(r.position, r.rotateAround) == SqrDistance(position, r.rotateAround)
  {
    var pivot := PivotAsWritten(k, t, rotateAround, position);
    if t.rotateAroundBy == 0.0 then CircularTick(position, pivot, t.rotateAroundBy)
    else
      var degrees := Platforms.SweepStep(t.rotateAroundBy, delta);
      CircularTick(k.orbit(position, pivot, t.rotateAroundBy - degrees), pivot, degrees)
  }

  /**
   * A platform at (-1, 0) orbiting one unit away at angle 0 circles the
   * origin. After a quarter turn it sits at (0, 1), and the next tick takes
   * (1, 1) as the pivot instead of the origin, which the corrected pivot
   * would have kept.
   */
  lemma PivotDriftsAsWritten(k: Kinematics, t: Segments.Segment)
    requires t.centerAngle == 0.0 && t.radius == 1.0 && t.rotateAroundBy == 180.0
    requires k.polar(0.0, 1.0) == Vec2(1.0, 0.0)
    requires k.orbit(Vec2(-1.0, 0.0), Zero, 90.0) == Vec2(0.0, 1.0)
    ensures var first := CircularTickAsWritten(k, t, Vec2(-1.0, 0.0), Zero, 90.0);
            var second := CircularTickAsWritten(k, t.(rotateAroundBy := first.rotateAroundBy), first.position,
                                                first.rotateAround, 90.0);
            && first.rotateAround == Zero
            && first.position == Vec2(0.0, 1.0)
            && second.rotateAround == Vec2(1.0, 1.0)
            && Platforms.Pivot(k, t.(rotateAround := Some(first.rotateAround)), first.position) == Zero
  {
    var first := CircularTickAsWritten(k, t, Vec2(-1.0, 0.0), Zero, 90.0);
    assert first.rotateAround == Zero;
    assert first.rotateAroundBy == 90.0;
    assert first.position == Vec2(0.0, 1.0);
  }

  /**
   * Reset's unparenting loop as Unity runs it: visit child `index` of the
   * live child list, drop it when tagged "Player", then go on to `index + 1`.
   */
  function DetachPlayersAsWritten(children: seq<Platforms.Child>, index: nat): (r: seq<Platforms.Child>)
    ensures |r| <= |children|
    ensures forall c :: c in r ==> c in children
    ensures forall c :: c in children && c.tag != "Player" ==> c in r
    decreases |children| - index
  {
    if index >= |children| then children
    else if children[index].tag == "Player" then
      DetachPlayersAsWritten(children[..index] + children[index + 1..], index + 1)
    else
      DetachPlayersAsWritten(children, index + 1)
  }

  /** Two riders side by side: the loop unparents the first and skips the second. */
  lemma SecondRiderSkippedAsWritten()
    ensures var riders := [Platforms.Child(1, "Player"), Platforms.Child(2, "Player")];
            && DetachPlayersAsWritten(riders, 0) == [Platforms.Child(2, "Player")]
            && !Platforms.NoRiders(DetachPlayersAsWritten(riders, 0))
            && Platforms.NoRiders(Platforms.DetachPlayers(riders))
  {
    var riders := [Platforms.Child(1, "Player"), Platforms.Child(2, "Player")];
    assert riders[..0] + riders[1..] == [Platforms.Child(2, "Player")];
    var left := DetachPlayersAsWritten(riders, 0);
    assert left[0].tag == "Player";
  }
}

=== FILE: platforms.dfy ===
/**
 * PlatformMove: a per-tick path-playback state machine. The platform holds
 * the authored `path`, a cursor `segmentIndex`, a playback direction
 * `velocity` (1 forward, -1 backward), a loop policy `repeat` (1 loop,
 * -1 ping-pong, anything else stop or destroy) and `target`, the running
 * copy of the current segment. Each tick either drains a wait, advances
 * the current segment, or moves on to the next one.
 */
module Platforms {
  import opened Engine
  import opened Segments

  /** A child transform of the platform (a rider parented to it). */
  datatype Child = Child(id: nat, tag: string)

  datatype Platform = Platform(
    moving: bool,
    repeat: int,
    velocity: int,
    destroyOnFinish: bool,
    destroyed: bool,
    path: seq<Segment>,
    segmentIndex: int,
    target: Segment,
    position: Vec2,
    scale: Vec2,
    rotation: real,
    initialPosition: Vec2,
    initialScale: Vec2,
    initialRotation: real,
    children: seq<Child>)

  /** The platform still exists and is playing its path. */
  predicate Active(p: Platform) {
    p.moving && !p.destroyed
  }

  /**
   * What every reachable platform satisfies: the path is non-empty, the
   * direction is +-1 and only ping-pong ever turns it around, every
   * authored segment is unplayed, scale and rotation sit at their initial
   * values (playback never changes them), and while the platform is active
   * the cursor indexes the path and the running segment is a progressed
   * copy of the template, reversed when playing backward.
   */
  predicate Inv(p: Platform) {
    && |p.path| > 0
    && (forall i :: 0 <= i < |p.path| ==> Fresh(p.path[i]))
    && p.scale == p.initialScale && p.rotation == p.initialRotation
    && (p.velocity == 1 || p.velocity == -1)
    && (p.repeat != -1 ==> p.velocity == 1)
    && (Active(p) ==>
          && 0 <= p.segmentIndex < |p.path|
          && Progressed(p.target, Oriented(p.path[p.segmentIndex], p.velocity)))
  }

  /**
   * Awake: start on a copy of the first segment and remember the initial
   * pose. Indexing an empty path throws in the source; here it yields None.
   */
  function Awake(moving: bool, repeat: int, destroyOnFinish: bool, path: seq<Segment>,
                 position: Vec2, scale: Vec2, rotation: real, children: seq<Child>): (r: Option<Platform>)
    requires forall i :: 0 <= i < |path| ==> Fresh(path[i])
    ensures r.None? <==> |path| == 0
    ensures r.Some? ==>
      && Inv(r.value)
      && r.value.segmentIndex == 0
      && r.value.velocity == 1
      && r.value.target == path[0]
      && r.value.position == position && r.value.scale == scale && r.value.rotation == rotation
      && AtInitialPose(r.value)
      && r.value.path == path && r.value.repeat == repeat
      && r.value.destroyOnFinish == destroyOnFinish && !r.value.destroyed
      && r.value.moving == moving && r.value.children == children
  {
    if |path| == 0 then None
    else
      Some(Platform(moving, repeat, 1, destroyOnFinish, false, path, 0, Copy(path[0]),
                    position, scale, rotation, position, scale, rotation, children))
  }

  /** Update: a platform that is not moving (or is gone) does nothing. */
  function Update(k: Kinematics, p: Platform, dt: real): (r: Platform)
    requires Inv(p)
    ensures Inv(r)
    ensures !Active(p) ==> r == p
    ensures Active(p) ==> r == Move(k, p, dt)
    ensures r.path == p.path && r.repeat == p.repeat
  {
    if p.destroyed || !p.moving then p else Move(k, p, dt)
  }

  /** The entry wait of the running segment for the current direction is pending. */
  predicate EntryWaiting(p: Platform) {
    (p.velocity == 1 && p.target.waitStart > 0.0) || (p.velocity == -1 && p.target.waitEnd > 0.0)
  }

  /** The exit wait of the running segment for the current direction is pending. */
  predicate ExitWaiting(p: Platform) {
    (p.velocity == 1 && p.target.waitEnd > 0.0) || (p.velocity == -1 && p.target.waitStart > 0.0)
  }

  /**
   * Move: while the entry wait is pending it is drained by `dt`, floored at
   * 0, and nothing moves; forward playback drains only `waitStart`,
   * backward playback only `waitEnd`. Otherwise the segment's subtype runs.
   */
  function Move(k: Kinematics, p: Platform, dt: real): (r: Platform)
    requires Inv(p) && Active(p)
    ensures Inv(r)
    ensures r.path == p.path && r.repeat == p.repeat
    ensures EntryWaiting(p) ==>
      && r == p.(target := r.target)
      && (p.velocity == 1 ==>
            r.target == p.target.(waitStart := r.target.waitStart)
            && r.target.waitStart == Max(p.target.waitStart - dt, 0.0))
      && (p.velocity == -1 ==>
            r.target == p.target.(waitEnd := r.target.waitEnd)
            && r.target.waitEnd == Max(p.target.waitEnd - dt, 0.0))
    // with no entry wait pending, the segment's subtype plays the tick
    ensures !EntryWaiting(p) && p.target.subType == Linear ==> r == MoveLinear(k, p, dt)
    ensures !EntryWaiting(p) && p.target.subType == Circular ==> r == MoveCircular(k, p, dt)
    ensures !EntryWaiting(p) && p.target.subType == Sequenced ==> r == MoveSequenced(k, p, dt)
  {
    var t := p.target;
    if p.velocity == 1 && t.waitStart > 0.0 then
      p.(target := t.(waitStart := Max(t.waitStart - dt, 0.0)))
    else if p.velocity == -1 && t.waitEnd > 0.0 then
      p.(target := t.(waitEnd := Max(t.waitEnd - dt, 0.0)))
    else
      match t.subType
      case Linear => MoveLinear(k, p, dt)
      case Circular => MoveCircular(k, p, dt)
      case Sequenced => MoveSequenced(k, p, dt)
  }

  /** The pose a platform returns to when a looping path restarts. */
  predicate AtInitialPose(p: Platform) {
    p.position == p.initialPosition && p.scale == p.initialScale && p.rotation == p.initialRotation
  }

  /** No child left on the platform carries the "Player" tag. */
  predicate NoRiders(children: seq<Child>) {
    forall i :: 0 <= i < |children| ==> children[i].tag != "Player"
  }

  /**
   * Unparent every "Player"-tagged child, keeping the other children in
   * order (the intended effect of Reset's loop; see platform_findings.dfy).
   */
  function DetachPlayers(children: seq<Child>): (r: seq<Child>)
    ensures NoRiders(r)
    ensures forall c :: c in r <==> c in children && c.tag != "Player"
    ensures NoRiders(children) ==> r == children
    decreases |children|
  {
    if |children| == 0 then []
    else
      var rest := DetachPlayers(children[1..]);
      if children[0].tag == "Player" then rest else [children[0]] + rest
  }

  /**
   * NextSegment: first drain the exit wait for the current direction
   * (`waitEnd` forward, `waitStart` backward); then step the cursor by
   * `velocity` and resolve an out-of-range cursor by the loop policy.
   */
  function NextSegment(p: Platform, dt: real): (r: Platform)
    requires Inv(p) && Active(p)
    ensures Inv(r)
    ensures r.path == p.path && r.repeat == p.repeat
    // draining the exit wait: no motion and nothing else changes
    ensures ExitWaiting(p) ==>
      && r.position == p.position
      && r.segmentIndex == p.segmentIndex
      && (p.velocity == 1 ==>
            r == p.(target := p.target.(waitEnd := Max(p.target.waitEnd - dt, 0.0))))
      && (p.velocity == -1 ==>
            r == p.(target := p.target.(waitStart := Max(p.target.waitStart - dt, 0.0))))
    // an in-range advance moves the cursor by exactly `velocity`
    ensures !ExitWaiting(p) && 0 <= p.segmentIndex + p.velocity < |p.path| ==>
      && r.segmentIndex == p.segmentIndex + p.velocity
      && r.velocity == p.velocity
      && r.target == Oriented(p.path[r.segmentIndex], p.velocity)
      && Fresh(r.target) && Active(r)
      && r == p.(segmentIndex := r.segmentIndex, target := r.target)
    // loop: back to the first segment, the initial pose, no riders
    ensures !ExitWaiting(p) && !(0 <= p.segmentIndex + p.velocity < |p.path|) && p.repeat == 1 ==>
      && r.segmentIndex == 0
      && r.target == p.path[0]
      && r.velocity == 1
      && AtInitialPose(r)
      && NoRiders(r.children)
      && Fresh(r.target) && Active(r)
      && r == p.(segmentIndex := 0, target := r.target, position := r.position, scale := r.scale,
                 rotation := r.rotation, children := r.children)
    // ping-pong: the cursor stays put, the direction flips, the segment replays reversed
    ensures !ExitWaiting(p) && !(0 <= p.segmentIndex + p.velocity < |p.path|) && p.repeat == -1 ==>
      && r.segmentIndex == p.segmentIndex
      && r.velocity == -p.velocity
      && r.target == Oriented(p.path[p.segmentIndex], r.velocity)
      && Fresh(r.target) && Active(r)
      && r == p.(velocity := r.velocity, target := r.target)
    // stop: freeze in place, or destroy the platform
    ensures !ExitWaiting(p) && !(0 <= p.segmentIndex + p.velocity < |p.path|)
            && p.repeat != 1 && p.repeat != -1 ==>
      && !Active(r)
      && (p.destroyOnFinish <==> r.destroyed)
      && (!p.destroyOnFinish ==> !r.moving)
      && r == p.(segmentIndex := r.segmentIndex, destroyed := r.destroyed, moving := r.moving)
  {
    var t := p.target;
    if p.velocity == 1 && t.waitEnd > 0.0 then
      p.(target := t.(waitEnd := Max(t.waitEnd - dt, 0.0)))
    else if p.velocity == -1 && t.waitStart > 0.0 then
      p.(target := t.(waitStart := Max(t.waitStart - dt, 0.0)))
    else
      var i := p.segmentIndex + p.velocity;
      if i < 0 || i >= |p.path| then
        if p.repeat == 1 then
          Reset(p)
        else if p.repeat == -1 then
          var v := -p.velocity;
          p.(velocity := v, target := Oriented(p.path[p.segmentIndex], v))
        else if p.destroyOnFinish then
          p.(segmentIndex := i, destroyed := true)
        else
          p.(segmentIndex := i, moving := false)
      else
        p.(segmentIndex := i, target := Oriented(p.path[i], p.velocity))
  }

  /**
   * Reset: restart at a fresh copy of the first segment and snap back to
   * the initial pose, unparenting riders. The direction is left alone.
   */
  function Reset(p: Platform): (r: Platform)
    requires |p.path| > 0
    ensures r.segmentIndex == 0 && r.target == p.path[0]
    ensures AtInitialPose(r)
    ensures NoRiders(r.children)
    ensures forall c :: c in r.children <==> c in p.children && c.tag != "Player"
    ensures r == p.(segmentIndex := 0, target := r.target, position := r.position, scale := r.scale,
                    rotation := r.rotation, children := r.children)
  {
    p.(segmentIndex := 0, target := Copy(p.path[0]), children := DetachPlayers(p.children),
       position := p.initialPosition, scale := p.initialScale, rotation := p.initialRotation)
  }

  /**
   * The linear goal: the resolved one, whatever the position, or else a
   * point exactly `moveBy` away from where the segment starts.
   */
  function LinearGoal(t: Segment, position: Vec2): (g: Vec2)
    ensures t.moveTo.Some? ==> g == t.moveTo.value
    ensures t.moveTo.None? ==> SqrDistance(position, g) == SqrDistance(t.moveBy, Zero)
    ensures t.moveTo.None? ==> Add(g, Neg(position)) == t.moveBy
  {
    if t.moveTo.Some? then t.moveTo.value else Add(position, t.moveBy)
  }

  /**
   * MoveLinear: resolve the goal once, then finish the segment on arrival or
   * move toward the goal by at most `speed * dt`.
   */
  function MoveLinear(k: Kinematics, p: Platform, dt: real): (r: Platform)
    requires Inv(p) && Active(p) && p.target.subType == Linear
    ensures Inv(r)
    ensures r.path == p.path && r.repeat == p.repeat
    // arrival: the segment is finished, with its goal recorded
    ensures Same(p.position, LinearGoal(p.target, p.position)) ==>
      r == NextSegment(p.(target := p.target.(moveTo := Some(LinearGoal(p.target, p.position)))), dt)
    // on the way: the goal is recorded and the platform steps toward it
    ensures !Same(p.position, LinearGoal(p.target, p.position)) ==>
      && r.target == p.target.(moveTo := Some(LinearGoal(p.target, p.position)))
      && r == p.(position := r.position, target := r.target)
      && r.position == MoveTowardsVec(k, p.position, LinearGoal(p.target, p.position), p.target.speed * dt)
    ensures Sound(k) && p.target.speed * dt >= 0.0 && !Same(p.position, LinearGoal(p.target, p.position)) ==>
      SqrDistance(p.position, r.position) <= (p.target.speed * dt) * (p.target.speed * dt)
    ensures Sound(k) && p.target.speed * dt > 0.0 && !Same(p.position, LinearGoal(p.target, p.position)) ==>
      r.position == LinearGoal(p.target, p.position)
      || SqrDistance(r.position, LinearGoal(p.target, p.position)) < SqrDistance(p.position, LinearGoal(p.target, p.position))
  {
    var goal := LinearGoal(p.target, p.position);
    var p1 := p.(target := p.target.(moveTo := Some(goal)));
    if Same(p.position, goal) then NextSegment(p1, dt)
    else p1.(position := MoveTowardsVec(k, p.position, goal, p.target.speed * dt))
  }

  /**
   * One tick of a circular sweep: the remaining signed sweep moves toward 0
   * by `delta`, clamped so it never passes 0 nor grows.
   */
  function SweepStep(sweep: real, delta: real): (r: real)
    ensures Within(r, sweep)
    ensures sweep == 0.0 ==> r == 0.0
    ensures delta >= 0.0 ==> Abs(sweep - r) <= delta
    ensures delta >= Abs(sweep) ==> r == 0.0
    ensures 0.0 <= delta <= Abs(sweep) ==> Abs(r) == Abs(sweep) - delta
  {
    if sweep < 0.0 then Clamp(sweep + delta, sweep, 0.0)
    else if sweep > 0.0 then Clamp(sweep - delta, 0.0, sweep)
    else sweep
  }

  /**
   * The pivot: the resolved one, whatever the position, or else the point
   * `radius` away from where the segment starts, in the `centerAngle`
   * direction.
   */
  function Pivot(k: Kinematics, t: Segment, position: Vec2): (c: Vec2)
    ensures t.rotateAround.Some? ==> c == t.rotateAround.value
    ensures t.rotateAround.None? ==> c == Add(position, k.polar(t.centerAngle, t.radius))
    ensures Sound(k) && t.rotateAround.None? ==> SqrDistance(c, position) == t.radius * t.radius
  {
    if t.rotateAround.Some? then t.rotateAround.value
    else Add(position, k.polar(t.centerAngle, t.radius))
  }

  /**
   * MoveCircular: resolve the pivot once; the segment is finished exactly
   * when the remaining sweep is 0; otherwise orbit the pivot clockwise by
   * the part of the sweep consumed this tick.
   */
  function MoveCircular(k: Kinematics, p: Platform, dt: real): (r: Platform)
    requires Inv(p) && Active(p) && p.target.subType == Circular
    ensures Inv(r)
    ensures r.path == p.path && r.repeat == p.repeat
    ensures p.target.rotateAroundBy != 0.0 ==>
      && r == p.(position := r.position, target := r.target)
      && r.target.rotateAround == Some(Pivot(k, p.target, p.position))
      && r.target.rotateAroundBy == SweepStep(p.target.rotateAroundBy, p.target.speed * dt)
      && Within(r.target.rotateAroundBy, p.target.rotateAroundBy)
      && r.position == k.orbit(p.position, Pivot(k, p.target, p.position),
                               p.target.rotateAroundBy - r.target.rotateAroundBy)
      && r.target == p.target.(rotateAround := r.target.rotateAround, rotateAroundBy := r.target.rotateAroundBy)
    // the platform stays on its circle around the pivot
    ensures Sound(k) && p.target.rotateAroundBy != 0.0 ==>
      SqrDistance(r.position, Pivot(k, p.target, p.position)) == SqrDistance(p.position, Pivot(k, p.target, p.position))
    ensures p.target.rotateAroundBy == 0.0 ==> r == NextSegment(p.(target := p.target.(rotateAround := Some(Pivot(k, p.target, p.position)))), dt)
  {
    var pivot := Pivot(k, p.target, p.position);
    var t := p.target.(rotateAround := Some(pivot));
    var p1 := p.(target := t);
    if t.rotateAroundBy == 0.0 then NextSegment(p1, dt)
    else
      var degrees := SweepStep(p.target.rotateAroundBy, p.target.speed * dt);
      p1.(position := k.orbit(p.position, pivot, p.target.rotateAroundBy - degrees),
          target := t.(rotateAroundBy := degrees))
  }

  /** The sequenced segment has no waypoint left to visit. */
  predicate SequenceDone(t: Segment) {
    |t.positions| == 0 || t.movingTo >= |t.positions|
  }

  /** The waypoint the sequenced segment is heading for. */
  function Waypoint(t: Segment): Vec2
    requires !SequenceDone(t)
  {
    t.positions[t.movingTo]
  }

  /**
   * MoveSequenced: the segment is finished once the cursor has passed the
   * last waypoint; otherwise move toward the current waypoint and advance
   * the cursor when the platform compares equal to it.
   */
  function MoveSequenced(k: Kinematics, p: Platform, dt: real): (r: Platform)
    requires Inv(p) && Active(p) && p.target.subType == Sequenced
    ensures Inv(r)
    ensures r.path == p.path && r.repeat == p.repeat
    ensures SequenceDone(p.target) ==> r == NextSegment(p, dt)
    ensures !SequenceDone(p.target) ==>
      && r == p.(position := r.position, target := r.target)
      && r.position == MoveTowardsVec(k, p.position, Waypoint(p.target), p.target.speed * dt)
      && r.target == p.target.(movingTo := r.target.movingTo)
      && (r.target.movingTo == p.target.movingTo + 1 <==> Same(r.position, Waypoint(p.target)))
      && (r.target.movingTo == p.target.movingTo || r.target.movingTo == p.target.movingTo + 1)
    ensures Sound(k) && p.target.speed * dt >= 0.0 && !SequenceDone(p.target) ==>
      SqrDistance(p.position, r.position) <= (p.target.speed * dt) * (p.target.speed * dt)
    ensures Sound(k) && p.target.speed * dt > 0.0 && !SequenceDone(p.target) ==>
      r.position == Waypoint(p.target)
      || SqrDistance(r.position, Waypoint(p.target)) < SqrDistance(p.position, Waypoint(p.target))
  {
    var t := p.target;
    if |t.positions| == 0 || t.movingTo >= |t.positions| then NextSegment(p, dt)
    else
      var waypoint := Waypoint(t);
      var next := MoveTowardsVec(k, p.position, Waypoint(p.target), p.target.speed * dt);
      p.(position := next,
         target := if Same(next, waypoint) then t.(movingTo := t.movingTo + 1) else t)
  }

  /** Play one tick per entry of `dts`, in order. */
  function Run(k: Kinematics, p: Platform, dts: seq<real>): (r: Platform)
    requires Inv(p)
    ensures Inv(r)
    decreases |dts|
  {
    if |dts| == 0 then p else Run(k, Update(k, p, dts[0]), dts[1..])
  }

  /** A stopped or destroyed platform never moves again, however long it runs. */
  lemma {:induction false} StoppedStaysPut(k: Kinematics, p: Platform, dts: seq<real>)
    requires Inv(p) && !Active(p)
    ensures Run(k, p, dts) == p
    decreases |dts|
  {
    if |dts| > 0 {
      StoppedStaysPut(k, Update(k, p, dts[0]), dts[1..]);
    }
  }

  /** Outside ping-pong the playback direction is forward on every tick of any run. */
  lemma {:induction false} ForwardUnlessPingPong(k: Kinematics, p: Platform, dts: seq<real>)
    requires Inv(p) && p.repeat != -1
    ensures Run(k, p, dts).velocity == 1
    ensures Run(k, p, dts).path == p.path
    decreases |dts|
  {
    if |dts| > 0 {
      ForwardUnlessPingPong(k, Update(k, p, dts[0]), dts[1..]);
    }
  }

  /**
   * Once resolved, a linear goal stays fixed for as long as the platform
   * has not reached it.
   */
  lemma LinearGoalPersists(k: Kinematics, p: Platform, dt: real, goal: Vec2)
    requires Inv(p) && Active(p)
    requires p.target.subType == Linear && p.target.moveTo == Some(goal)
    requires !Same(p.position, goal)
    ensures Update(k, p, dt).target.moveTo == Some(goal)
    ensures Update(k, p, dt).segmentIndex == p.segmentIndex
  {
  }

  /**
   * The first moving tick of a linear segment fixes its goal at the
   * platform's position plus `moveBy`.
   */
  lemma LinearGoalResolvedOnEntry(k: Kinematics, p: Platform, dt: real)
    requires Inv(p) && Active(p) && !EntryWaiting(p)
    requires p.target.subType == Linear && p.target.moveTo.None?
    requires !Same(p.position, Add(p.position, p.target.moveBy))
    ensures Update(k, p, dt).target.moveTo == Some(Add(p.position, p.target.moveBy))
  {
  }

  /** Once resolved, a pivot stays fixed while sweep remains. */
  lemma PivotPersists(k: Kinematics, p: Platform, dt: real, pivot: Vec2)
    requires Inv(p) && Active(p)
    requires p.target.subType == Circular && p.target.rotateAround == Some(pivot)
    requires p.target.rotateAroundBy != 0.0
    ensures Update(k, p, dt).target.rotateAround == Some(pivot)
    ensures Update(k, p, dt).segmentIndex == p.segmentIndex
  {
  }
}

=== FILE: player.dfy ===
/**
 * PlayerController: the per-frame character controller. Each frame decays
 * the jump cooldown, classifies the ground and walls from the probe hits,
 * and, while controls are enabled, runs Move: bounded-rate horizontal
 * acceleration, budget refill, wall cling, jump, bullet dash and the
 * fall-through triggers.
 *
 * Probe hits, input and the aim vector arrive in an `Input`; the rigid
 * body's velocity is a field the controller overwrites. Coroutines and
 * Invoke calls are returned as `Effect`s for the engine to schedule.
 */
module PlayerControl {
  import opened Engine

  /** GroundType; `NoGround` is the source's `None`. */
  datatype GroundType = NoGround | Half | Full

  /** A ground-layer collider a probe can hit; `isPlatform` says it carries a PlatformMove. */
  datatype Collider = Collider(id: nat, tag: string, isPlatform: bool)

  /** The controller's inspector fields; `gravityY` is Physics2D.gravity.y. */
  datatype Config = Config(
    moveSpeed: real,
    acceleration: real,
    airJumps: int,
    jumpForce: real,
    wallJumpForce: Vec2,
    wallClingSmearDelay: real,
    bulletDashes: int,
    bulletDashForce: real,
    gravityY: real)

  /** The ranges the inspector fields are meant to take. */
  predicate ValidConfig(c: Config) {
    c.acceleration >= 0.0 && c.airJumps >= 0 && c.wallClingSmearDelay >= 0.0 && c.bulletDashes >= 0
  }

  datatype Player = Player(
    canMove: bool,
    velocity: Vec2,
    movementX: real,
    jumps: int,
    dashes: int,
    lastClingDir: int,
    clingTime: real,
    jumpCooldown: real,
    standingOn: Option<Collider>,
    groundType: GroundType,
    left: Option<Collider>,
    right: Option<Collider>,
    parent: Option<Collider>)

  /**
   * One frame's input: elapsed time, the raw horizontal and vertical axes,
   * the Jump and Fire2 button-down edges, the aim vector (mouse world point
   * minus the player's position) and the three probe results.
   */
  datatype Input = Input(
    dt: real,
    horizontal: real,
    vertical: real,
    jumpPressed: bool,
    dashPressed: bool,
    aim: Vec2,
    groundHit: Option<Collider>,
    leftHits: seq<Collider>,
    rightHits: seq<Collider>)

  /** Deferred work the controller hands to the engine. */
  datatype Effect =
    | IgnoreCollision(collider: Collider)
    | RestoreCollisionAfter(collider: Collider, delay: real)
    | ResumeControlsAfter(delay: real)

  datatype Step = Step(player: Player, effects: seq<Effect>)

  /** The cooldown a jump or dash arms. */
  const CooldownArm: real := 0.1
  /** How long controls stay released after a dash. */
  const ControlRelease: real := 0.1
  /** How long collision with a half platform stays off after dropping through it. */
  const FallThroughDelay: real := 0.2

  /** Awake: full jump and dash budgets; every other private field at its default. */
  function Awake(cfg: Config, canMove: bool): (p: Player)
    ensures p.jumps == cfg.airJumps + 1 && p.dashes == cfg.bulletDashes
    ensures ValidConfig(cfg) ==> BudgetInv(cfg, p)
  {
    Player(canMove, Zero, 0.0, cfg.airJumps + 1, cfg.bulletDashes, 0, 0.0, 0.0,
           None, NoGround, None, None, None)
  }

  /**
   * The budgets and timers stay in range: dashes within [0, bulletDashes],
   * jumps within [0, airJumps + 1], the cling timer within
   * [-1, wallClingSmearDelay], the cooldown within [0, 0.1] and the
   * remembered cling direction one of -1, 0, 1.
   */
  predicate BudgetInv(cfg: Config, p: Player) {
    && 0 <= p.dashes <= cfg.bulletDashes
    && 0 <= p.jumps <= cfg.airJumps + 1
    && -1.0 <= p.clingTime <= cfg.wallClingSmearDelay
    && 0.0 <= p.jumpCooldown <= CooldownArm
    && -1 <= p.lastClingDir <= 1
  }

  // ---------------------------------------------------------------------
  // Ground and wall classification

  /** ASCII lower-casing, as used by a case-insensitive enum parse. */
  function Lower(c: char): (r: char)
    ensures 'A' <= c <= 'Z' ==> 'a' <= r <= 'z'
    ensures !('A' <= c <= 'Z') ==> r == c
  {
    if 'A' <= c <= 'Z' then (c as int - 'A' as int + 'a' as int) as char else c
  }

  predicate EqualsIgnoreCase(a: string, b: string) {
    |a| == |b| && forall i :: 0 <= i < |a| ==> Lower(a[i]) == Lower(b[i])
  }

  /**
   * The ground type of the standing collider: its tag parsed, ignoring
   * case, as a GroundType name; no hit or any other tag gives NoGround.
   */
  function Classify(hit: Option<Collider>): (g: GroundType)
    ensures g == Half <==> hit.Some? && EqualsIgnoreCase(hit.value.tag, "Half")
    ensures g == Full <==> hit.Some? && EqualsIgnoreCase(hit.value.tag, "Full")
    ensures hit.None? ==> g == NoGround
  {
    if hit.None? then NoGround
    else if EqualsIgnoreCase(hit.value.tag, "Half") then
      assert Lower(hit.value.tag[0]) == Lower('H') != Lower('F');
      Half
    else if EqualsIgnoreCase(hit.value.tag, "Full") then
      Full
    else NoGround
  }

  /** Only a collider tagged exactly "Full" is a wall. */
  predicate IsWall(c: Collider) {
    c.tag == "Full"
  }

  /**
   * The wall a side probe reports: the last hit tagged "Full", or none when
   * no hit is.
   */
  function LastWall(hits: seq<Collider>): (r: Option<Collider>)
    ensures r.Some? <==> exists i :: 0 <= i < |hits| && IsWall(hits[i])
    ensures r.Some? ==> IsWall(r.value)
    ensures r.Some? ==>
      exists i :: 0 <= i < |hits| && hits[i] == r.value && forall j :: i < j < |hits| ==> !IsWall(hits[j])
    decreases |hits|
  {
    if |hits| == 0 then None
    else if IsWall(hits[|hits| - 1]) then Some(hits[|hits| - 1])
    else
      var r := LastWall(hits[..|hits| - 1]);
      assert forall i :: 0 <= i < |hits| - 1 ==> hits[..|hits| - 1][i] == hits[i];
      r
  }

  /** The player is parented to nothing or to a moving platform. */
  predicate ParentInv(p: Player) {
    p.parent.None? || p.parent.value.isPlatform
  }

  /**
   * CheckGrounded: record the standing collider and its ground type, and
   * reparent the player to it when it is a platform, to nothing otherwise.
   */
  function CheckGrounded(p: Player, hit: Option<Collider>): (r: Player)
    ensures r == p.(standingOn := hit, groundType := Classify(hit), parent := r.parent)
    ensures ParentInv(p) ==> ParentInv(r)
    ensures ParentInv(p) ==> (r.parent.Some? <==> hit.Some? && hit.value.isPlatform)
    ensures ParentInv(p) && r.parent.Some? ==> r.parent == hit
  {
    var parent := if hit != p.parent then (if hit.Some? && hit.value.isPlatform then hit else None) else p.parent;
    p.(standingOn := hit, groundType := Classify(hit), parent := parent)
  }

  /**
   * CheckWalls: record the left and right walls; losing both walls resets
   * the cling timer to the full smear delay.
   */
  function CheckWalls(cfg: Config, p: Player, leftHits: seq<Collider>, rightHits: seq<Collider>): (r: Player)
    ensures r == p.(left := LastWall(leftHits), right := LastWall(rightHits), clingTime := r.clingTime)
    ensures r.left.None? && r.right.None? ==> r.clingTime == cfg.wallClingSmearDelay
    ensures r.left.Some? || r.right.Some? ==> r.clingTime == p.clingTime
  {
    var l := LastWall(leftHits);
    var rt := LastWall(rightHits);
    p.(left := l, right := rt, clingTime := if l.None? && rt.None? then cfg.wallClingSmearDelay else p.clingTime)
  }

  // ---------------------------------------------------------------------
  // Directions

  /** -1 for a left wall, +1 for a right wall, 0 for both or neither. */
  function WallSum(p: Player): (d: int)
    ensures d == -1 <==> p.left.Some? && p.right.None?
    ensures d == 1 <==> p.right.Some? && p.left.None?
    ensures d == 0 <==> (p.left.Some? <==> p.right.Some?)
  {
    (if p.left.Some? then -1 else 0) + (if p.right.Some? then 1 else 0)
  }

  /** The wall the player pushes into: a wall on the side the horizontal input points to. */
  function ClingDirection(p: Player): (d: int)
    ensures d == -1 <==> p.left.Some? && p.movementX < 0.0
    ensures d == 1 <==> p.right.Some? && p.movementX > 0.0
    ensures -1 <= d <= 1
  {
    (if p.left.Some? && p.movementX < 0.0 then -1 else 0) + (if p.right.Some? && p.movementX > 0.0 then 1 else 0)
  }

  /** Jump's wall direction: the walls present when the input is held past half way. */
  function ReachDirection(p: Player): (d: int)
    ensures d == -1 <==> Abs(p.movementX) > 0.5 && p.left.Some? && p.right.None?
    ensures d == 1 <==> Abs(p.movementX) > 0.5 && p.right.Some? && p.left.None?
    ensures Abs(p.movementX) <= 0.5 ==> d == 0
    ensures d == 0 <==> Abs(p.movementX) <= 0.5 || (p.left.Some? <==> p.right.Some?)
    ensures -1 <= d <= 1
  {
    if Abs(p.movementX) > 0.5 then WallSum(p) else 0
  }

  /** BulletDash's wall direction: as Jump's, but only while airborne. */
  function DashWallDirection(p: Player): (d: int)
    ensures d == -1 <==> p.standingOn.None? && Abs(p.movementX) > 0.5 && p.left.Some? && p.right.None?
    ensures d == 1 <==> p.standingOn.None? && Abs(p.movementX) > 0.5 && p.right.Some? && p.left.None?
    ensures p.standingOn.Some? ==> d == 0
    ensures d == 0 <==> p.standingOn.Some? || Abs(p.movementX) <= 0.5 || (p.left.Some? <==> p.right.Some?)
    ensures -1 <= d <= 1
  {
    if p.standingOn.None? && Abs(p.movementX) > 0.5 then WallSum(p) else 0
  }

  // ---------------------------------------------------------------------
  // Sub-steps of Move

  /**
   * The horizontal speed Move steers toward: the input times moveSpeed,
   * cut linearly with the crouch axis down to half at full crouch.
   */
  function HorizontalTarget(cfg: Config, movementX: real, crouch: real): (v: real)
    ensures crouch >= 0.0 ==> v == movementX * cfg.moveSpeed
    ensures crouch <= 0.0 ==> v == movementX * cfg.moveSpeed * (1.0 + crouch / 2.0)
    ensures crouch == -1.0 ==> 2.0 * v == movementX * cfg.moveSpeed
    ensures movementX == 0.0 ==> v == 0.0
  {
    movementX * (cfg.moveSpeed - cfg.moveSpeed * Max(-crouch, 0.0) / 2.0)
  }

  /** The refill gate: standing on something with the cooldown run out. */
  predicate CanRefill(p: Player) {
    p.standingOn.Some? && p.jumpCooldown == 0.0
  }

  /** Refill: restore both budgets, the cling timer, and unlock clinging. */
  function Refill(cfg: Config, p: Player): (r: Player)
    ensures r.jumps == cfg.airJumps + 1 && r.dashes == cfg.bulletDashes
    ensures r.clingTime == cfg.wallClingSmearDelay && r.lastClingDir == 0
    ensures r == p.(jumps := r.jumps, dashes := r.dashes, clingTime := r.clingTime, lastClingDir := r.lastClingDir)
  {
    p.(jumps := cfg.airJumps + 1, dashes := cfg.bulletDashes, clingTime := cfg.wallClingSmearDelay, lastClingDir := 0)
  }

  /** Move clings this frame: airborne, pushing into a wall it is not locked out of. */
  predicate Clings(p: Player) {
    p.standingOn.None? && ClingDirection(p) != p.lastClingDir && ClingDirection(p) != 0
  }

  /**
   * WallCling: refill dashes; hold the player up at 1 unit/s while the
   * timer is non-negative, then let it slide at gravity times the time
   * past release; count the timer down to -1, where the wall locks.
   */
  function WallCling(cfg: Config, p: Player, dir: int, dt: real): (r: Player)
    ensures r.dashes == cfg.bulletDashes
    ensures r.velocity.x == p.velocity.x
    ensures p.clingTime >= 0.0 ==> r.velocity.y == 1.0
    ensures p.clingTime < 0.0 ==> r.velocity.y == cfg.gravityY * -p.clingTime
    ensures r.clingTime == Max(p.clingTime - dt, -1.0) && r.clingTime >= -1.0
    ensures dt >= 0.0 ==> r.clingTime <= Max(p.clingTime, -1.0)
    ensures r.clingTime == -1.0 ==> r.lastClingDir == dir
    ensures r.clingTime != -1.0 ==> r.lastClingDir == p.lastClingDir
    ensures r == p.(dashes := r.dashes, velocity := r.velocity, clingTime := r.clingTime, lastClingDir := r.lastClingDir)
  {
    var vy := if p.clingTime >= 0.0 then 1.0 else cfg.gravityY * -p.clingTime;
    var clingTime := Max(p.clingTime - dt, -1.0);
    p.(dashes := cfg.bulletDashes, velocity := Vec2(p.velocity.x, vy), clingTime := clingTime,
       lastClingDir := if clingTime == -1.0 then dir else p.lastClingDir)
  }

  /**
   * Jump: with no wall in reach, spend one jump if any is left (and do
   * nothing at all otherwise); with a wall not locked out, kick off it
   * and lock that wall, leaving the jump budget alone; with a locked wall
   * only re-arm the cooldown.
   */
  function Jump(cfg: Config, p: Player): (r: Player)
    ensures ReachDirection(p) == 0 && p.jumps <= 0 ==> r == p
    ensures ReachDirection(p) == 0 && p.jumps > 0 ==>
      && r.jumps == p.jumps - 1
      && r.velocity == Vec2(p.velocity.x, cfg.jumpForce)
      && r.jumpCooldown == CooldownArm
      && r == p.(jumps := r.jumps, velocity := r.velocity, jumpCooldown := r.jumpCooldown)
    ensures ReachDirection(p) != 0 && ReachDirection(p) != p.lastClingDir ==>
      && r.velocity == Vec2(cfg.wallJumpForce.x * -(ReachDirection(p) as real), cfg.wallJumpForce.y)
      && r.lastClingDir == ReachDirection(p)
      && r.jumpCooldown == CooldownArm
      && r == p.(velocity := r.velocity, lastClingDir := r.lastClingDir, jumpCooldown := r.jumpCooldown)
    ensures ReachDirection(p) != 0 && ReachDirection(p) == p.lastClingDir ==>
      r == p.(jumpCooldown := CooldownArm)
  {
    var dir := ReachDirection(p);
    if dir == 0 then
      if p.jumps <= 0 then p
      else p.(jumps := p.jumps - 1, velocity := Vec2(p.velocity.x, cfg.jumpForce), jumpCooldown := CooldownArm)
    else if dir != p.lastClingDir then
      p.(velocity := Vec2(cfg.wallJumpForce.x * -(dir as real), cfg.wallJumpForce.y), lastClingDir := dir,
         jumpCooldown := CooldownArm)
    else
      p.(jumpCooldown := CooldownArm)
  }

  /**
   * BulletDash: always overwrite the cling lock with the wall direction;
   * then, if a dash is left, spend it, launch along the normalized aim at
   * the dash force, arm the cooldown and release controls for 0.1 s.
   */
  function BulletDash(cfg: Config, k: Kinematics, p: Player, aim: Vec2): (r: Step)
    ensures r.player.lastClingDir == DashWallDirection(p)
    ensures p.dashes <= 0 ==> r == Step(p.(lastClingDir := DashWallDirection(p)), [])
    ensures p.dashes > 0 ==>
      && r.player.dashes == p.dashes - 1
      && r.player.velocity == Scale(k.normalize(aim), cfg.bulletDashForce)
      && r.player.jumpCooldown == CooldownArm
      && !r.player.canMove
      && r.effects == [ResumeControlsAfter(ControlRelease)]
      && r.player == p.(lastClingDir := r.player.lastClingDir, dashes := r.player.dashes,
                         velocity := r.player.velocity, jumpCooldown := CooldownArm, canMove := false)
    // launched at exactly the dash force, or left at rest when aimed at the player itself
    ensures Sound(k) && p.dashes > 0 && SqrDistance(aim, Zero) > Epsilon * Epsilon ==>
      SqrDistance(r.player.velocity, Zero) == cfg.bulletDashForce * cfg.bulletDashForce
    ensures Sound(k) && p.dashes > 0 && SqrDistance(aim, Zero) <= Epsilon * Epsilon ==>
      r.player.velocity == Zero
  {
    var p1 := p.(lastClingDir := DashWallDirection(p));
    if p1.dashes <= 0 then Step(p1, [])
    else
      Step(p1.(dashes := p1.dashes - 1, velocity := Scale(k.normalize(aim), cfg.bulletDashForce),
               jumpCooldown := CooldownArm, canMove := false),
           [ResumeControlsAfter(ControlRelease)])
  }

  /** FallThrough: stop colliding with the platform now, restore it after the delay. */
  function FallThrough(c: Collider): (e: seq<Effect>)
    ensures IgnoreCollision(c) in e && RestoreCollisionAfter(c, FallThroughDelay) in e
    ensures forall x :: x in e && x.IgnoreCollision? ==> x == IgnoreCollision(c)
  {
    [IgnoreCollision(c), RestoreCollisionAfter(c, FallThroughDelay)]
  }

  /** The effects of Move's last two lines: drop through a half platform, or pop back up. */
  function CrouchEffects(p: Player, crouch: real): (e: seq<Effect>)
    requires p.groundType != NoGround ==> p.standingOn.Some?
    ensures (exists c :: IgnoreCollision(c) in e) <==> crouch < 0.0 && p.groundType == Half
    ensures crouch < 0.0 && p.groundType == Half ==> e == FallThrough(p.standingOn.value)
    ensures crouch > 0.0 && p.groundType == Half ==> e == [RestoreCollisionAfter(p.standingOn.value, 0.0)]
    ensures p.groundType != Half || crouch == 0.0 ==> e == []
  {
    var fall := if crouch < 0.0 && p.groundType == Half then FallThrough(p.standingOn.value) else [];
    var rise := if crouch > 0.0 && p.standingOn.Some? && p.groundType == Half
                then [RestoreCollisionAfter(p.standingOn.value, 0.0)] else [];
    assert crouch < 0.0 && p.groundType == Half ==> IgnoreCollision(p.standingOn.value) in fall;
    fall + rise
  }

  /**
   * The part of Move before the buttons are read (lines 103-116): steer the
   * horizontal speed toward the input by at most `acceleration`, refill
   * when grounded with the cooldown run out, then cling.
   */
  function Settle(cfg: Config, p: Player, dt: real, crouch: real): (r: Player)
    // horizontal steering, untouched by cling
    ensures r.velocity.x == MoveTowards(p.velocity.x, HorizontalTarget(cfg, p.movementX, crouch), cfg.acceleration)
    // refill gate
    ensures CanRefill(p) ==>
      && r.jumps == cfg.airJumps + 1 && r.dashes == cfg.bulletDashes
      && r.clingTime == cfg.wallClingSmearDelay && r.lastClingDir == 0
    ensures !CanRefill(p) ==> r.jumps == p.jumps
    // cling, which only happens in the air
    ensures Clings(p) ==>
      && r.dashes == cfg.bulletDashes
      && r.clingTime == Max(p.clingTime - dt, -1.0)
      && r.velocity.y == (if p.clingTime >= 0.0 then 1.0 else cfg.gravityY * -p.clingTime)
      && r.lastClingDir == (if r.clingTime == -1.0 then ClingDirection(p) else p.lastClingDir)
    ensures !Clings(p) ==>
      && r.velocity.y == p.velocity.y
      && r.clingTime == (if CanRefill(p) then cfg.wallClingSmearDelay else p.clingTime)
      && r.dashes == (if CanRefill(p) then cfg.bulletDashes else p.dashes)
      && r.lastClingDir == (if CanRefill(p) then 0 else p.lastClingDir)
    ensures r == p.(velocity := r.velocity, jumps := r.jumps, dashes := r.dashes,
                    clingTime := r.clingTime, lastClingDir := r.lastClingDir)
  {
    var vx := MoveTowards(p.velocity.x, HorizontalTarget(cfg, p.movementX, crouch), cfg.acceleration);
    var p1 := p.(velocity := Vec2(vx, p.velocity.y));
    var p2 := if CanRefill(p1) then Refill(cfg, p1) else p1;
    assert Clings(p2) == Clings(p);
    if Clings(p2) then WallCling(cfg, p2, ClingDirection(p2), dt) else p2
  }

  /**
   * The two button presses of Move, in the source's order: a jump press
   * jumps, then a dash press dashes from wherever the jump left the player.
   * Neither touches the ground, the walls or the parent, and the only
   * effect either schedules is the end of a dash's control release.
   */
  function Presses(cfg: Config, k: Kinematics, p: Player, input: Input): (s: Step)
    ensures forall x :: x in s.effects ==> x.ResumeControlsAfter?
    ensures s.player.standingOn == p.standingOn && s.player.groundType == p.groundType
    ensures s.player.parent == p.parent
    ensures !input.jumpPressed ==> s.player.jumps == p.jumps
  {
    var p4 := if input.jumpPressed then Jump(cfg, p) else p;
    if input.dashPressed then BulletDash(cfg, k, p4, input.aim) else Step(p4, [])
  }

  /**
   * Move: settle, then jump, dash and the crouch triggers, in that order.
   * Only a Half ground with the vertical axis down switches collision off.
   */
  function Move(cfg: Config, k: Kinematics, p: Player, input: Input): (r: Step)
    requires p.groundType != NoGround ==> p.standingOn.Some?
    ensures !input.jumpPressed && !input.dashPressed ==> r.player == Settle(cfg, p, input.dt, input.vertical)
    // a jump press jumps from the settled state; a dash press dashes after any jump
    ensures input.jumpPressed && !input.dashPressed ==> r.player == Jump(cfg, Settle(cfg, p, input.dt, input.vertical))
    ensures input.dashPressed ==>
      var before := if input.jumpPressed then Jump(cfg, Settle(cfg, p, input.dt, input.vertical))
                    else Settle(cfg, p, input.dt, input.vertical);
      && r.player == BulletDash(cfg, k, before, input.aim).player
      && r.effects == BulletDash(cfg, k, before, input.aim).effects + CrouchEffects(r.player, input.vertical)
    ensures !input.dashPressed ==> r.effects == CrouchEffects(r.player, input.vertical)
    ensures !input.jumpPressed ==> r.player.jumps == Settle(cfg, p, input.dt, input.vertical).jumps
    ensures (exists c :: IgnoreCollision(c) in r.effects) <==> input.vertical < 0.0 && p.groundType == Half
    ensures forall c :: IgnoreCollision(c) in r.effects ==> Some(c) == p.standingOn
    ensures r.player.standingOn == p.standingOn && r.player.groundType == p.groundType
    ensures r.player.parent == p.parent
  {
    var p3 := Settle(cfg, p, input.dt, input.vertical);
    var s5 := Presses(cfg, k, p3, input);
    Step(s5.player, s5.effects + CrouchEffects(s5.player, input.vertical))
  }

  /** The state Move sees: cooldown decayed, input read, ground and walls probed. */
  function Probe(cfg: Config, p: Player, input: Input): (r: Player)
    ensures r.jumpCooldown == Max(p.jumpCooldown - input.dt, 0.0)
    ensures r.movementX == input.horizontal
    ensures r.standingOn == input.groundHit && r.groundType == Classify(input.groundHit)
    ensures r.left == LastWall(input.leftHits) && r.right == LastWall(input.rightHits)
    ensures r.groundType != NoGround ==> r.standingOn.Some?
    ensures ParentInv(p) ==> ParentInv(r)
    ensures ParentInv(p) ==> (r.parent.Some? <==> input.groundHit.Some? && input.groundHit.value.isPlatform)
    // losing both walls restarts the cling timer; otherwise it is kept
    ensures r.left.None? && r.right.None? ==> r.clingTime == cfg.wallClingSmearDelay
    ensures r.left.Some? || r.right.Some? ==> r.clingTime == p.clingTime
    // nothing else is touched: budgets, velocity, cling lock and control flag survive
    ensures r == p.(movementX := input.horizontal, jumpCooldown := r.jumpCooldown, standingOn := r.standingOn,
                    groundType := r.groundType, left := r.left, right := r.right, clingTime := r.clingTime,
                    parent := r.parent)
  {
    var p1 := p.(movementX := input.horizontal, jumpCooldown := Max(p.jumpCooldown - input.dt, 0.0));
    CheckWalls(cfg, CheckGrounded(p1, input.groundHit), input.leftHits, input.rightHits)
  }

  /** Update: probe, then Move only while controls are enabled. */
  function Update(cfg: Config, k: Kinematics, p: Player, input: Input): (r: Step)
    ensures !p.canMove ==> r == Step(Probe(cfg, p, input), [])
    ensures p.canMove ==> r == Move(cfg, k, Probe(cfg, p, input), input)
    ensures r.player.jumpCooldown == CooldownArm || r.player.jumpCooldown == Max(p.jumpCooldown - input.dt, 0.0)
    ensures r.player.jumpCooldown >= 0.0
    ensures r.player.standingOn == input.groundHit
    ensures ParentInv(p) ==> ParentInv(r.player)
  {
    var q := Probe(cfg, p, input);
    if q.canMove then Move(cfg, k, q, input) else Step(q, [])
  }

  /** ResumeControls: the scheduled end of a dash's control release. */
  function ResumeControls(p: Player): (r: Player)
    ensures r.canMove
    ensures r == p.(canMove := true)
  {
    p.(canMove := true)
  }

  // ---------------------------------------------------------------------
  // Properties

  /** Every frame keeps the budgets and timers in range. */
  lemma UpdateKeepsBudget(cfg: Config, k: Kinematics, p: Player, input: Input)
    requires ValidConfig(cfg) && BudgetInv(cfg, p) && input.dt >= 0.0
    ensures BudgetInv(cfg, Update(cfg, k, p, input).player)
  {
    var q := Probe(cfg, p, input);
    assert BudgetInv(cfg, q);
    if q.canMove {
      var p3 := Settle(cfg, q, input.dt, input.vertical);
      assert BudgetInv(cfg, p3);
      var p4 := if input.jumpPressed then Jump(cfg, p3) else p3;
      assert BudgetInv(cfg, p4);
    }
  }

  /** A frame or the scheduled resumption of controls. */
  datatype Event = Frame(input: Input) | Resume

  function Apply(cfg: Config, k: Kinematics, p: Player, e: Event): Player {
    match e
    case Frame(i) => Update(cfg, k, p, i).player
    case Resume => ResumeControls(p)
  }

  function Run(cfg: Config, k: Kinematics, p: Player, events: seq<Event>): Player
    decreases |events|
  {
    if |events| == 0 then p else Run(cfg, k, Apply(cfg, k, p, events[0]), events[1..])
  }

  /** Non-negative frame times. */
  predicate Forward(events: seq<Event>) {
    forall i :: 0 <= i < |events| ==> events[i].Frame? ==> events[i].input.dt >= 0.0
  }

  /** From Awake on, no sequence of frames and resumptions leaves the ranges. */
  lemma {:induction false} RunKeepsBudget(cfg: Config, k: Kinematics, p: Player, events: seq<Event>)
    requires ValidConfig(cfg) && BudgetInv(cfg, p) && Forward(events)
    ensures BudgetInv(cfg, Run(cfg, k, p, events))
    decreases |events|
  {
    if |events| > 0 {
      if events[0].Frame? {
        UpdateKeepsBudget(cfg, k, p, events[0].input);
      }
      assert Forward(events[1..]) by {
        forall i | 0 <= i < |events[1..]| ensures events[1..][i].Frame? ==> events[1..][i].input.dt >= 0.0 {
          assert events[1..][i] == events[i + 1];
        }
      }
      RunKeepsBudget(cfg, k, Apply(cfg, k, p, events[0]), events[1..]);
    }
  }

  /**
   * The refill gate on a whole frame without jump or dash: the budgets are
   * restored exactly when controls are enabled, the player stands on
   * something and the decayed cooldown is 0; otherwise jumps are untouched.
   */
  lemma RefillGate(cfg: Config, k: Kinematics, p: Player, input: Input)
    requires !input.jumpPressed && !input.dashPressed
    ensures var q := Update(cfg, k, p, input).player;
            var gate := p.canMove && input.groundHit.Some? && Max(p.jumpCooldown - input.dt, 0.0) == 0.0;
            && (gate ==> q.jumps == cfg.airJumps + 1 && q.dashes == cfg.bulletDashes
                         && q.clingTime == cfg.wallClingSmearDelay && q.lastClingDir == 0)
            && (!gate ==> q.jumps == p.jumps)
  {
  }

  /**
   * The fall-through trigger on a whole frame: collision with a collider
   * is switched off exactly when controls are enabled, the player stands
   * on that collider, it classifies as Half, and the vertical input is
   * negative.
   */
  lemma FallThroughGate(cfg: Config, k: Kinematics, p: Player, input: Input, c: Collider)
    ensures IgnoreCollision(c) in Update(cfg, k, p, input).effects <==>
      p.canMove && input.vertical < 0.0 && input.groundHit == Some(c) && Classify(input.groundHit) == Half
  {
    var q := Probe(cfg, p, input);
    if p.canMove {
      var r := Move(cfg, k, q, input);
      if input.vertical < 0.0 && input.groundHit == Some(c) && Classify(input.groundHit) == Half {
        assert exists x :: IgnoreCollision(x) in r.effects;
      }
    }
  }

  /**
   * With one air jump and no wall in reach: a grounded jump and an air jump
   * each spend one charge and launch at the jump force; a third press
   * changes nothing.
   */
  lemma TwoJumpsThenNothing(cfg: Config, p: Player)
    requires cfg.airJumps == 1 && p.jumps == cfg.airJumps + 1 && ReachDirection(p) == 0
    ensures var first := Jump(cfg, p);
            var second := Jump(cfg, first.(velocity := Vec2(first.velocity.x, 3.0)));
            var third := Jump(cfg, second.(velocity := Vec2(second.velocity.x, -2.0)));
            && first.jumps == 1 && first.velocity.y == cfg.jumpForce
            && second.jumps == 0 && second.velocity.y == cfg.jumpForce
            && third == second.(velocity := Vec2(second.velocity.x, -2.0))
  {
  }

  /**
   * A tag spelled "full" makes solid ground but not a wall: the ground parse
   * ignores case, the wall test does not.
   */
  lemma TagCaseSplit()
    ensures Classify(Some(Collider(0, "full", false))) == Full
    ensures !IsWall(Collider(0, "full", false))
  {
    assert EqualsIgnoreCase("full", "Full") by {
      assert Lower('F') == 'f';
    }
  }
}

=== FILE: segments.dfy ===
/**
 * PlatformPathingSegment: one authored unit of a platform's path. The source
 * keeps every subtype's payload in one record and dispatches on `subType`;
 * this record does the same. The progress fields (`moveTo`, `rotateAround`,
 * the remaining `rotateAroundBy`, `movingTo` and the waits) are what a
 * running copy consumes. `moveTo` and `rotateAround` are optional instead
 * of using Vector2.zero as "not yet resolved" (see platform_findings.dfy).
 */
module Segments {
  import opened Engine

  datatype SubType = Linear | Circular | Sequenced

  datatype Segment = Segment(
    subType: SubType,
    rotateBy: real,
    scaleBy: Vec2,
    speed: real,
    waitStart: real,
    waitEnd: real,
    repeat: real,
    // Linear
    moveBy: Vec2,
    moveTo: Option<Vec2>,
    // Circular
    radius: real,
    centerAngle: real,
    rotateAroundBy: real,
    rotateAround: Option<Vec2>,
    // Sequenced
    positions: seq<Vec2>,
    movingTo: nat)

  /**
   * An authored segment has not been played yet: the progress fields that
   * are not serialized (`moveTo`, `rotateAround`, `movingTo`) hold their
   * defaults.
   */
  predicate Fresh(s: Segment) {
    s.moveTo.None? && s.rotateAround.None? && s.movingTo == 0
  }

  /**
   * Copy: a field-by-field copy with its own waypoint list. Being a value,
   * the copy can be reversed or consumed without touching the template.
   */
  function Copy(s: Segment): (c: Segment)
    ensures c == s
  {
    Segment(
      s.subType, s.rotateBy, s.scaleBy, s.speed, s.waitStart, s.waitEnd, s.repeat,
      s.moveBy, s.moveTo,
      s.radius, s.centerAngle, s.rotateAroundBy, s.rotateAround,
      s.positions, s.movingTo)
  }

  /**
   * Reverse: turn the segment around so that playing it retraces the
   * forward motion. Only the subtype's own geometry changes; waits, speed
   * and progress are kept as they are.
   */
  function Reverse(s: Segment): (r: Segment)
    ensures r.subType == s.subType
    ensures s.subType == Linear ==>
      r == s.(moveBy := r.moveBy) && Add(s.moveBy, r.moveBy) == Zero
    ensures s.subType == Circular ==>
      && r == s.(centerAngle := r.centerAngle, rotateAroundBy := r.rotateAroundBy)
      && r.rotateAroundBy + s.rotateAroundBy == 0.0
      && r.centerAngle + s.rotateAroundBy == s.centerAngle
    ensures s.subType == Sequenced ==>
      && r == s.(positions := r.positions)
      && |r.positions| == |s.positions|
      && forall i :: 0 <= i < |s.positions| ==> r.positions[i] == s.positions[|s.positions| - 1 - i]
  {
    match s.subType
    case Linear => s.(moveBy := Neg(s.moveBy))
    case Circular => s.(centerAngle := s.centerAngle - s.rotateAroundBy, rotateAroundBy := -s.rotateAroundBy)
    case Sequenced => s.(positions := Reversed(s.positions))
  }

  /** Reversing twice gives back the segment, for every subtype. */
  lemma ReverseInvolution(s: Segment)
    ensures Reverse(Reverse(s)) == s
  {
    match s.subType
    case Linear =>
    case Circular =>
    case Sequenced =>
      ReversedTwice(s.positions);
  }

  /**
   * The running copy of a template for playback direction `velocity`.
   * Backward playback runs the template turned around, so turning the
   * running copy around again gives the template back; either way the
   * waits, speed and progress fields are the template's own.
   */
  function Oriented(template: Segment, velocity: int): (r: Segment)
    ensures velocity == -1 ==> Reverse(r) == template
    ensures velocity != -1 ==> r == template
    ensures r.subType == template.subType && r.speed == template.speed
    ensures r.waitStart == template.waitStart && r.waitEnd == template.waitEnd
    ensures r.moveTo == template.moveTo && r.rotateAround == template.rotateAround
    ensures r.movingTo == template.movingTo && |r.positions| == |template.positions|
    ensures Fresh(r) <==> Fresh(template)
  {
    var c := Copy(template);
    ReverseInvolution(c);
    if velocity == -1 then Reverse(c) else c
  }

  /** `v` lies between 0 and `bound`, on the same side of 0. */
  predicate Within(v: real, bound: real) {
    (bound >= 0.0 && 0.0 <= v <= bound) || (bound <= 0.0 && bound <= v <= 0.0)
  }

  /**
   * `t` is a running copy of `a`: every authored field is unchanged and the
   * remaining sweep has not crossed 0 nor grown past the authored one.
   */
  predicate Progressed(t: Segment, a: Segment) {
    && t.subType == a.subType
    && t.rotateBy == a.rotateBy
    && t.scaleBy == a.scaleBy
    && t.speed == a.speed
    && t.repeat == a.repeat
    && t.moveBy == a.moveBy
    && t.radius == a.radius
    && t.centerAngle == a.centerAngle
    && t.positions == a.positions
    && Within(t.rotateAroundBy, a.rotateAroundBy)
  }
}

=== FILE: weapon.dfy ===
/**
 * WeaponController's trigger bookkeeping: the charge-up timer, the hold
 * timer and the fire-rate cooldown, and when a frame fires. Spawning the
 * projectiles is not modelled; a fired shot is reported as a `Shot`
 * carrying the number of shots the trigger asked for.
 */
module Weapons {
  import opened Engine

  datatype FireMode = Semi | Auto | Burst

  /** The WeaponBaseData fields the timers read. */
  datatype WeaponBase = WeaponBase(
    fireMode: FireMode,
    fireRate: real,
    chargeTime: real,
    holdTime: real,
    chargePerShot: bool,
    fireOnExpire: bool,
    burstCount: int,
    burstDelay: real)

  /** The ranges the asset's timing fields are meant to take. */
  predicate ValidBase(b: WeaponBase) {
    b.fireRate >= 0.0 && b.chargeTime >= 0.0 && b.holdTime >= 0.0
  }

  datatype Weapon = Weapon(charge: real, fireRate: real, holdTime: real)

  /** One frame of the Fire1 button: held, pressed this frame, released this frame. */
  datatype Trigger = Trigger(dt: real, held: bool, pressed: bool, released: bool)

  /** A call to Fire: how many shots it asked for and whether a follow-up was scheduled. */
  datatype Shot = Shot(count: int, followUp: bool)

  datatype WeaponStep = WeaponStep(weapon: Weapon, heldShot: Option<Shot>, releaseShot: Option<Shot>)

  /** Awake: start charged-up from zero, with the full hold time. */
  function Awake(b: WeaponBase): (w: Weapon)
    ensures ValidBase(b) ==> WeaponInv(b, w)
    ensures w.charge == b.chargeTime && w.holdTime == b.holdTime
    ensures w.fireRate == 0.0
  {
    Weapon(b.chargeTime, 0.0, b.holdTime)
  }

  /**
   * The timers stay in range: charge within [0, chargeTime], the fire-rate
   * cooldown within [0, fireRate] and the hold time within [0, holdTime].
   */
  predicate WeaponInv(b: WeaponBase, w: Weapon) {
    && 0.0 <= w.charge <= b.chargeTime
    && 0.0 <= w.fireRate <= b.fireRate
    && 0.0 <= w.holdTime <= b.holdTime
  }

  /** Shots per trigger: the burst count in Burst mode, otherwise 1. */
  function ShotCount(b: WeaponBase): (n: int)
    ensures b.fireMode == Burst ==> n == b.burstCount
    ensures b.fireMode != Burst ==> n == 1
  {
    if b.fireMode == Burst then b.burstCount else 1
  }

  /** What one call to Fire leaves behind: the timers and the shot it reports. */
  datatype Fired = Fired(weapon: Weapon, shot: Shot)

  /**
   * Fire's bookkeeping: re-arm the fire-rate cooldown, restart the charge
   * when every shot must be charged, and schedule the rest of a burst.
   */
  function Fire(b: WeaponBase, w: Weapon, count: int): (r: Fired)
    ensures r.weapon.fireRate == b.fireRate
    ensures b.chargePerShot ==> r.weapon.charge == b.chargeTime
    ensures !b.chargePerShot ==> r.weapon.charge == w.charge
    ensures r.weapon.holdTime == w.holdTime
    ensures r.shot.count == count && (r.shot.followUp <==> count > 1)
  {
    Fired(Weapon(if b.chargePerShot then b.chargeTime else w.charge, b.fireRate, w.holdTime),
          Shot(count, count - 1 > 0))
  }

  /** The shot a trigger asks for: ShotCount shots, with a follow-up iff more than one. */
  function TriggerShot(b: WeaponBase): Shot {
    Shot(ShotCount(b), ShotCount(b) > 1)
  }

  /** One phase of Update: the timers afterwards and the shot fired, if any. */
  datatype Phase = Phase(weapon: Weapon, shot: Option<Shot>)

  /** While held, fire on every frame (Auto) or the press frame only, once cooled down and charged. */
  predicate FiresWhileHeld(b: WeaponBase, w: Weapon, t: Trigger) {
    t.held && (b.fireMode == Auto || t.pressed) && w.fireRate == 0.0 && w.charge == 0.0
  }

  /**
   * The held-trigger part of Update: maybe fire, then run the charge down,
   * and the hold time only once fully charged; a released trigger
   * restarts the charge.
   */
  function HoldPhase(b: WeaponBase, w: Weapon, t: Trigger): (r: Phase)
    ensures r.shot.Some? <==> FiresWhileHeld(b, w, t)
    ensures r.shot.Some? ==> r.shot.value == TriggerShot(b)
    ensures !t.held ==> r.weapon == w.(charge := b.chargeTime)
    ensures t.held ==>
      var before := if FiresWhileHeld(b, w, t) then Fire(b, w, ShotCount(b)).weapon else w;
      && r.weapon.charge == Max(before.charge - t.dt, 0.0)
      && (r.weapon.charge == 0.0 ==> r.weapon.holdTime == Max(w.holdTime - t.dt, 0.0))
      && (r.weapon.charge != 0.0 ==> r.weapon.holdTime == w.holdTime)
      && r.weapon.fireRate == before.fireRate
  {
    if t.held then
      var fired := if FiresWhileHeld(b, w, t) then Some(Fire(b, w, ShotCount(b))) else None;
      var w1 := if fired.Some? then fired.value.weapon else w;
      var charge := Max(w1.charge - t.dt, 0.0);
      var holdTime := if charge == 0.0 then Max(w1.holdTime - t.dt, 0.0) else w1.holdTime;
      Phase(w1.(charge := charge, holdTime := holdTime), if fired.Some? then Some(fired.value.shot) else None)
    else
      Phase(w.(charge := b.chargeTime), None)
  }

  /** Fire on release after some hold time was spent, or when the hold time runs out on an expiring weapon. */
  predicate FiresOnRelease(b: WeaponBase, w: Weapon, t: Trigger) {
    (t.released && w.holdTime < b.holdTime) || (b.fireOnExpire && w.holdTime == 0.0)
  }

  /** The release part of Update: a release or expiry shot restores the full hold time. */
  function ReleasePhase(b: WeaponBase, w: Weapon, t: Trigger): (r: Phase)
    ensures r.shot.Some? <==> FiresOnRelease(b, w, t)
    ensures r.shot.Some? ==>
      && r.shot.value == TriggerShot(b)
      && r.weapon.holdTime == b.holdTime && r.weapon.fireRate == b.fireRate
      && r.weapon.charge == (if b.chargePerShot then b.chargeTime else w.charge)
    ensures r.shot.None? ==> r.weapon == w
  {
    if FiresOnRelease(b, w, t) then
      var fired := Fire(b, w, ShotCount(b));
      Phase(fired.weapon.(holdTime := b.holdTime), Some(fired.shot))
    else
      Phase(w, None)
  }

  /** The fire-rate cooldown drains at fireRate * 60 per second, floored at 0. */
  function Cooldown(b: WeaponBase, w: Weapon, dt: real): (r: Weapon)
    ensures r.fireRate >= 0.0
    ensures r.fireRate == Max(w.fireRate - b.fireRate * 60.0 * dt, 0.0)
    ensures b.fireRate >= 0.0 && dt >= 0.0 ==> r.fireRate <= Max(w.fireRate, 0.0)
    ensures r == w.(fireRate := r.fireRate)
  {
    assert b.fireRate >= 0.0 && dt >= 0.0 ==> b.fireRate * 60.0 * dt >= 0.0;
    w.(fireRate := Max(w.fireRate - b.fireRate * 60.0 * dt, 0.0))
  }

  /** WeaponController.Update, less the aiming. */
  function Update(b: WeaponBase, w: Weapon, t: Trigger): (r: WeaponStep)
    ensures r.heldShot.Some? <==> FiresWhileHeld(b, w, t)
    ensures r.heldShot.Some? ==> r.heldShot.value == TriggerShot(b)
    // the release check reads the timers the held phase left
    ensures r.releaseShot.Some? <==> FiresOnRelease(b, HoldPhase(b, w, t).weapon, t)
    ensures r.releaseShot.Some? ==>
      && r.releaseShot.value == TriggerShot(b)
      && r.weapon.holdTime == b.holdTime
      && (b.chargePerShot ==> r.weapon.charge == b.chargeTime)
    ensures r.releaseShot.None? ==>
      && r.weapon.charge == HoldPhase(b, w, t).weapon.charge
      && r.weapon.holdTime == HoldPhase(b, w, t).weapon.holdTime
    ensures !t.held ==> r.weapon.charge == b.chargeTime
    // any shot re-arms the cooldown before this frame's drain; without one it just drains
    ensures r.heldShot.Some? || r.releaseShot.Some? ==>
      r.weapon.fireRate == Max(b.fireRate - b.fireRate * 60.0 * t.dt, 0.0)
    ensures r.heldShot.None? && r.releaseShot.None? ==>
      r.weapon.fireRate == Max(w.fireRate - b.fireRate * 60.0 * t.dt, 0.0)
    ensures r.weapon.fireRate >= 0.0
  {
    var held := HoldPhase(b, w, t);
    var released := ReleasePhase(b, held.weapon, t);
    WeaponStep(Cooldown(b, released.weapon, t.dt), held.shot, released.shot)
  }

  /** Every frame keeps the timers in range. */
  lemma UpdateKeepsTimers(b: WeaponBase, w: Weapon, t: Trigger)
    requires ValidBase(b) && WeaponInv(b, w) && t.dt >= 0.0
    ensures WeaponInv(b, Update(b, w, t).weapon)
  {
    var held := HoldPhase(b, w, t);
    assert WeaponInv(b, held.weapon);
    var released := ReleasePhase(b, held.weapon, t);
    assert WeaponInv(b, released.weapon);
  }

  /** Without any shot, the fire-rate cooldown never grows. */
  lemma CooldownNonIncreasing(b: WeaponBase, w: Weapon, t: Trigger)
    requires ValidBase(b) && WeaponInv(b, w) && t.dt >= 0.0
    requires Update(b, w, t).heldShot.None? && Update(b, w, t).releaseShot.None?
    ensures Update(b, w, t).weapon.fireRate <= w.fireRate
  {
    var held := HoldPhase(b, w, t);
    assert held.weapon.fireRate == w.fireRate;
  }

  function Run(b: WeaponBase, w: Weapon, ts: seq<Trigger>): Weapon
    decreases |ts|
  {
    if |ts| == 0 then w else Run(b, Update(b, w, ts[0]).weapon, ts[1..])
  }

  /** From Awake on, no sequence of frames takes a timer out of range. */
  lemma {:induction false} RunKeepsTimers(b: WeaponBase, w: Weapon, ts: seq<Trigger>)
    requires ValidBase(b) && WeaponInv(b, w)
    requires forall i :: 0 <= i < |ts| ==> ts[i].dt >= 0.0
    ensures WeaponInv(b, Run(b, w, ts))
    decreases |ts|
  {
    if |ts| > 0 {
      UpdateKeepsTimers(b, w, ts[0]);
      RunKeepsTimers(b, Update(b, w, ts[0]).weapon, ts[1..]);
    }
  }
}
